=== FILE: README.md ===
# ScanEye core, modelled in Dafny

ScanEye is a home-network monitor. A Node.js backend scans the local subnet
on a timer, runs a speed test on a second timer, caches the latest device
list and persists its settings in `config.json`. It pushes `scan:started`,
`scan:complete`, `devices:updated` and `config:updated` events to every open
WebSocket client. A React page follows those events.

This project models that core as pure functions over an immutable world:

- `ConfigManager`: the file-backed settings store. The defaults are merged
  under whatever is stored, a missing file is initialised, and a failed write
  rejects.
- `WebSocket`: the broadcast fan-out to open clients.
- `NetworkDetect`: subnet arithmetic (bitwise AND, popcount of the mask, the
  `a.b.c.d/p` rendering) and the choice of the first usable IPv4 interface.
- `Scheduler`: the single-flight scan run, split at its `await`s into
  `BeginScan` (up to `scan:started`), `ResolveScan` (the configuration read,
  the subnet choice and the scanner call) and `SettleScan` (after the
  scanner). Also the speed-test run, `startScheduler` and
  `updateSchedulerInterval`.
- `ScanRoutes`: the decision logic of the HTTP routes in `routes/scan.js`.
- `ScanPage`: the page's socket-message reducer, the "Scan now" button and
  the displayed subnet.
- `System`: every step interleaved. A `POST /config` handler is a series of
  `HandlerAction` steps, one per awaited action. Every interleaving of
  `POST /config` handlers, scheduled scan runs, timers and the other
  routes' steps is then a sequence of steps. The module proves that
  scheduled scan runs never overlap, for any such sequence. `GET /scan`
  calls the scanner outside the scheduler and is not a step here. It also proves
  that a page which showed the cache keeps showing it, except on the one path
  that replaces the cache without a `devices:updated` event. And it shows
  that a subnet change during a run is persisted but not scanned until the
  next trigger, because the handler's own rescan meets the single-flight guard.

Every broadcast is recorded in the world's `trace`. An open client's inbox,
built from `WebSocket.Broadcast` one broadcast at a time, is that trace with
each message stamped at its own moment (`WebSocket.InboxIsStamped`).
JavaScript truthiness is modelled by `Values.Truthy`, and an object spread
`{...a, ...b}` is the map union `a + b`.

Where the code and its comments disagree, the model follows the code.
`scanInterval` is a number of seconds (backend/utils/scheduler.js:15, 31),
even though the default's comment calls it minutes
(backend/utils/configManager.js:11). `updateConfig` on a file that exists
but cannot be parsed reads the defaults, so it overwrites the file with
defaults plus the update (`ConfigManager.UpdateOverUnreadable`).

## Model

| member | source | states |
|---|---|---|
| ConfigManager.GetConfig | backend/utils/configManager.js:18-42 | Rejects exactly when the file is missing and cannot be written. A missing file is written with the defaults. A stored record is read with every key overriding the defaults. An unreadable file yields the defaults. |
| ConfigManager.UpdateConfig | backend/utils/configManager.js:45-56 | Rejects exactly when the write fails, with that error. Otherwise the file holds and the call returns the current config overlaid key by key with the update. |
| ConfigManager.GetConfigHasDefaultKeys | backend/utils/configManager.js:10-15 | Every successful read has all four default keys. |
| ConfigManager.UpdateThenGet | backend/utils/configManager.js:45-56 | Reading after a successful update returns exactly what the update returned. |
| ConfigManager.UpdateEmptyKeepsConfig | backend/utils/configManager.js:48-51 | An empty update leaves what reads return unchanged. |
| ConfigManager.UpdateIdempotent | backend/utils/configManager.js:48-51 | Applying the same update twice equals applying it once. |
| ConfigManager.UpdateOverUnreadable | backend/utils/configManager.js:38-41 | Updating a file that cannot be parsed replaces it with the defaults plus the update. |
| WebSocket.SendFrom | backend/utils/websocket.js:28-32 | Each open client from a given index on gets the same message once, in client order. No closed client gets anything. |
| WebSocket.Broadcast | backend/utils/websocket.js:23-33 | With no server nothing is sent. Otherwise every open client, and only open clients, gets `{event, data, timestamp}` once, in order. |
| WebSocket.ExactlyOnce | backend/utils/websocket.js:28-32 | A client receives the broadcast exactly once when its readyState is 1, and never otherwise. |
| WebSocket.MessagesToUnique | backend/utils/websocket.js:28-32 | Sends of one message to strictly increasing clients give a client that message once if it is among them, and nothing otherwise. |
| WebSocket.BroadcastTo | backend/utils/websocket.js:23-33 | An open client receives exactly the stamped message of one broadcast, and a closed one nothing. |
| WebSocket.InboxIsStamped | backend/utils/websocket.js:23-33 | Over a series of broadcasts, an open client receives each emission once, in order, stamped at its own broadcast. A closed client receives nothing. |
| NetworkDetect.BitAndBits | backend/utils/networkDetect.js:37 | Each bit of `a & b` is set exactly when it is set in both `a` and `b`. |
| NetworkDetect.BitAndBelow | backend/utils/networkDetect.js:37 | `a & b` is at most `a` and at most `b`. |
| NetworkDetect.BitAndIdempotent | backend/utils/networkDetect.js:37 | Masking twice with the same mask equals masking once. |
| NetworkDetect.OnesCountsBinaryDigits | backend/utils/networkDetect.js:42 | The popcount of a mask part is the number of `1` characters in its base-2 string. |
| NetworkDetect.OnesBelow | backend/utils/networkDetect.js:41-43 | A number below 2^k has at most k one-bits. |
| NetworkDetect.AndOctet | backend/utils/networkDetect.js:37 | The AND of two octets is an octet no larger than either. |
| NetworkDetect.MaskBitsBound | backend/utils/networkDetect.js:41-43 | The popcount sum over a mask is at most 8 bits per octet. |
| NetworkDetect.CalculateSubnet | backend/utils/networkDetect.js:32-46 | Each network octet is the AND of the address and mask octets. The prefix is the mask's total number of one-bits, at most 32. |
| NetworkDetect.SubnetIdempotent | backend/utils/networkDetect.js:37-43 | The subnet of a network address under the same mask is that same subnet. |
| NetworkDetect.HighOnesFacts | backend/utils/networkDetect.js:41-43 | A byte whose k high bits are set is below 2^w and has exactly k one-bits. |
| NetworkDetect.MaskOctet | backend/utils/networkDetect.js:41-43 | The octet with k leading ones has popcount k. |
| NetworkDetect.ContiguousPrefix | backend/utils/networkDetect.js:41-43 | For a contiguous mask of p leading ones the computed prefix is p. |
| NetworkDetect.Decimal | backend/utils/networkDetect.js:45 | The decimal rendering of a number is a non-empty run of digits. |
| NetworkDetect.DecimalRoundTrip | backend/utils/networkDetect.js:45 | Parsing the decimal rendering of n yields n. |
| NetworkDetect.DigitRun | backend/utils/networkDetect.js:45 | The leading digit run is a prefix made only of digits. |
| NetworkDetect.DigitRunOf | backend/utils/networkDetect.js:45 | A digit string followed by a non-digit has a leading digit run of exactly its own length. |
| NetworkDetect.ReadDecimal | backend/utils/networkDetect.js:45 | Reading a number from a rendering followed by a non-digit gives back the number and the rest. |
| NetworkDetect.ReadDecimalField | backend/utils/networkDetect.js:38-45 | Reading a field ended by a separator gives back the number and the text after the separator. |
| NetworkDetect.Render | backend/utils/networkDetect.js:38-45 | The rendered subnet is never the empty string. |
| NetworkDetect.ParsePrefixDecimal | backend/utils/networkDetect.js:45 | The prefix part of a rendering parses back to the subnet. |
| NetworkDetect.RenderRoundTrip | backend/utils/networkDetect.js:38-45 | Parsing `a.b.c.d/p` gives back the subnet that was rendered. |
| NetworkDetect.RenderInjective | backend/utils/networkDetect.js:38-45 | Two subnets with the same rendering are equal. |
| NetworkDetect.Tag | backend/utils/networkDetect.js:9-10 | Each interface of a group is paired with the group's name, in order. |
| NetworkDetect.FirstUsableSpec | backend/utils/networkDetect.js:9-24 | No subnet exactly when no interface is non-internal IPv4. Otherwise the subnet of the first such interface, with none usable before it. |
| NetworkDetect.ListedSpec | backend/utils/networkDetect.js:54-67 | The list holds an entry for every non-internal IPv4 interface and nothing else. |
| NetworkDetect.FirstIsHeadOfListed | backend/utils/networkDetect.js:4-72 | The default subnet is the subnet of the first network-info entry, and there is none exactly when the list is empty. |
| NetworkDetect.ListedAppend | backend/utils/networkDetect.js:54-65 | Listing a concatenation gives the two listings one after the other. |
| NetworkDetect.ListGroup | backend/utils/networkDetect.js:55-64 | The inner loop pushes exactly the group's usable interfaces, in order. |
| NetworkDetect.GetDefaultSubnet | backend/utils/networkDetect.js:4-29 | The nested loops with early return compute the first usable interface's subnet, or none. |
| NetworkDetect.Detected | backend/utils/networkDetect.js:4-46 | `getDefaultSubnet` returns null exactly when no interface is usable. Otherwise it returns a non-empty string that reads back as the first usable interface's subnet. |
| NetworkDetect.GetNetworkInfo | backend/utils/networkDetect.js:49-72 | The nested loops push exactly the usable interfaces' entries, in order. |
| NetworkDetect.DefaultMatchesInfo | backend/utils/networkDetect.js:4-72 | The default subnet is the first network-info entry's subnet, and it is absent exactly when the list is empty. |
| Scheduler.BeginScan | backend/utils/scheduler.js:53-59 | While a scan runs, a new run returns at once and changes nothing. Otherwise it sets the flag and broadcasts `scan:started`, and the run then waits on its configuration read. Nothing else changes. |
| Scheduler.ResolveSubnet | backend/utils/scheduler.js:63-67 | A truthy manual subnet wins. Otherwise a non-empty detected subnet is used. Otherwise there is none. |
| Scheduler.ResolveScan | backend/utils/scheduler.js:61-76 | The run reads the configuration as it is at that moment. If the read fails or no subnet resolves, the run ends: the flag is cleared and one failure `scan:complete` with zero devices is broadcast. Otherwise the scanner is called once, with the resolved subnet, and the run waits on it with the flag still set. The cache and timers are untouched. |
| Scheduler.ResolveWithoutSubnet | backend/utils/scheduler.js:69-73 | With no subnet the run reports `No subnet configured`, never calls the scanner and clears the flag. |
| Scheduler.SettleScan | backend/utils/scheduler.js:76-90 | Every path clears the flag and leaves the timers alone. Exactly one `scan:complete` is broadcast. A `devices:updated` carrying the new cache follows only when no error was reported, and then the completion carries the device count and the subnet the run resolved. An error always reports zero devices. The cache changes only to a found device list. |
| Scheduler.SettleWithDevices | backend/utils/scheduler.js:76-84 | On success the cache is replaced and `lastScanTime` persisted. Then `scan:complete{count, subnet}` and `devices:updated{devices}` are broadcast. |
| Scheduler.SettleWithScanError | backend/utils/scheduler.js:85-87 | A scanner failure reports its message with zero devices and keeps the cache and the disk. |
| Scheduler.SettleWithWriteError | backend/utils/scheduler.js:79-87 | If the `lastScanTime` write fails, the cache is already replaced, yet only a failure `scan:complete` is broadcast. |
| Scheduler.SpeedFields | backend/utils/scheduler.js:41-46 | A measurement is stored under exactly the keys networkSpeed, uploadSpeed, ping and lastSpeedTest. |
| Scheduler.SettleSpeedTest | backend/utils/scheduler.js:37-51 | A measurement is merged into the stored config. A failed measurement or a failed write is swallowed with the disk kept. Nothing is broadcast. |
| Scheduler.SpeedTestMergesFields | backend/utils/scheduler.js:41-46 | After a successful test, reads return the four measured values, and every other key is unchanged. |
| Scheduler.TriggerSpeedTest | backend/utils/scheduler.js:105-107 | The manual trigger runs the same path, broadcasts nothing and changes only the disk. |
| Scheduler.IntervalOr60 | backend/utils/scheduler.js:15-17 | A non-zero number is kept, and a falsy value becomes 60. |
| Scheduler.Start | backend/utils/scheduler.js:12-35 | Only the config read can reject, and then nothing changes. Otherwise one scan starts (unless one runs) and one speed test starts. The scan timer is armed at `(scanInterval \|\| 60)` s and the speed timer at `(speedTestInterval \|\| 60)` min. Whether the disk accepts writes is unchanged. |
| Scheduler.UpdateIntervals | backend/utils/scheduler.js:97-102 | Rejects exactly when the write fails, and then nothing changes. Otherwise the scheduler restarts, and the last event is `config:updated` carrying the settings. |
| Scheduler.UpdateIntervalsRearms | backend/utils/scheduler.js:97-101 | A new truthy interval re-arms its timer at the new period at once. |
| Scheduler.Persist | backend/utils/configManager.js:45-56 | An update from inside the scheduler rejects exactly on a write fault, and then changes nothing. Otherwise it touches only the disk. |
| ScanRoutes.IntervalUpdates | backend/routes/scan.js:40-42 | The updates hold exactly the truthy interval fields, with their parsed values. |
| ScanRoutes.ConfigActions | backend/routes/scan.js:37-51 | The scheduler restarts only when an interval is truthy, and that happens first. A present `manualSubnet`, even falsy, is persisted, announced and followed by a scan. Nothing else happens. |
| ScanRoutes.Perform | backend/routes/scan.js:43-50 | An action rejects exactly when it is a write and the disk refuses writes. A rejected action changes nothing. |
| ScanRoutes.PerformAll | backend/routes/scan.js:36-56 | The first rejection stops the handler. No action list rejects on a writable disk. On a read-only disk a list that starts with a write rejects at once and changes nothing. The trace never shrinks. |
| ScanRoutes.PostConfig | backend/routes/scan.js:35-57 | Answers 200 or 500. While the disk's write fault stays as it is for the whole request, it answers 500 exactly when the request asks for something and the configuration cannot be written, and then nothing changes. A request with no interval and no `manualSubnet` answers 200 and changes nothing. |
| ScanRoutes.ManualSubnetIsScanned | backend/routes/scan.js:46-53 | With no scan running, a truthy manual subnet on a writable disk answers 200 and broadcasts `config:updated` then `scan:started`. When that run reads its configuration it hands exactly that subnet to the scanner. |
| ScanRoutes.RescanDroppedWhileScanning | backend/routes/scan.js:46-51 | With a scan running, the request answers 200 and a read returns the new subnet. Only `config:updated` is broadcast: the rescan is dropped and no new run starts. |
| ScanRoutes.ManualSubnetRequest | backend/routes/scan.js:46-51 | Right after the request a scan is in flight, and the trace gained `config:updated` then `scan:started`. The scanner has not run, and a read returns the new subnet. |
| ScanRoutes.SubnetStored | backend/routes/scan.js:47 | After `manualSubnet` is persisted, a read returns it. |
| ScanRoutes.SubnetRequestSteps | backend/routes/scan.js:46-53 | A request with only `manualSubnet` runs persist, announce and rescan, in that order, and answers 200. |
| ScanRoutes.GetResults | backend/routes/scan.js:59-64 | The response is the scheduler's cache. |
| ScanRoutes.TriggerScan | backend/routes/scan.js:100-108 | Always answers 200. It starts a scan only when none runs, and otherwise changes nothing. |
| ScanRoutes.GetScan | backend/routes/scan.js:83-97 | Scans the query subnet, else the detected one. With neither it answers 400 without scanning. It answers 200 with the devices and subnet exactly when the scan succeeds. |
| ScanRoutes.GetScanAgreesWithSchedule | backend/routes/scan.js:86-90 | `GET /scan` picks its subnet by the scheduler's rule, with the query parameter in the place of `manualSubnet`. |
| ScanRoutes.SpeedTestRoute | backend/routes/scan.js:67-80 | Runs the shared speed-test path. It answers with an error exactly when the configuration cannot be read. After a stored measurement it answers with exactly the measured values. After a failed measurement it answers with the values stored before. |
| ScanPage.HandleMessage | webui/src/pages/Scan.jsx:47-80 | `scan:started` sets scanning and loading. `scan:complete` clears both and shows `Scan failed: …` exactly when the error is truthy, then refetches. `devices:updated` replaces the list, with `[]` when the field is missing. `config:updated` only refetches, and anything else is ignored. |
| ScanPage.ScanNow | webui/src/pages/Scan.jsx:108-120 | Does nothing while scanning. Otherwise it sends one request and sets scanning. A failed request resets scanning and shows the error. |
| ScanPage.ReplayKeepsScanning | webui/src/pages/Scan.jsx:47-60 | Messages without a `scan:complete` never clear the scanning flag. |
| ScanPage.ClickBlocksUntilComplete | webui/src/pages/Scan.jsx:108-120 | After a click whose request succeeded, no click sends a request until a `scan:complete` arrives. The click after it sends again. |
| ScanPage.DisplaySubnet | webui/src/pages/Scan.jsx:100 | The shown subnet is a truthy manual subnet, else the detected default. |
| System.Apply | backend/utils/scheduler.js:53-91 | A run resumes only from the `await` it is waiting on, a scan or speed timer that was never armed does not fire, and a speed test settles only while one is pending. `GET /results` changes nothing. Only a `DiskFault` step changes whether the disk accepts writes, and it changes nothing else. |
| System.HandlerStepsPerformAll | backend/routes/scan.js:36-56 | On a writable disk, a handler's action steps that nothing interrupts reach exactly the atomic handler's world. |
| System.ConfigRequestIsHandlerSteps | backend/routes/scan.js:35-57 | An uninterrupted `POST /config` is its handler's steps. When the first write is refused, it is no steps at all. |
| System.InitialSingleFlight | backend/utils/scheduler.js:7-10 | The process starts idle with no scan in flight. |
| System.EmitKeeps | backend/utils/websocket.js:23-33 | A non-phase broadcast preserves single flight. |
| System.BeginKeeps | backend/utils/scheduler.js:53-59 | Entering a scan run preserves single flight. |
| System.ResolveKeeps | backend/utils/scheduler.js:61-76 | Resolving a run's subnet preserves single flight, whether the run ends there or goes on to the scanner. |
| System.SettleKeeps | backend/utils/scheduler.js:76-90 | Settling a run preserves single flight. |
| System.CompleteKeeps | backend/utils/scheduler.js:83-89 | Ending the run in flight with one completion, without another scanner call, keeps single flight. |
| System.StartKeeps | backend/utils/scheduler.js:12-35 | Restarting the scheduler preserves single flight. |
| System.UpdateIntervalsKeeps | backend/utils/scheduler.js:97-102 | Updating the intervals preserves single flight. |
| System.PerformKeeps | backend/routes/scan.js:39-51 | Each action of a `POST /config` handler preserves single flight. |
| System.ApplyKeeps | backend/utils/scheduler.js:53-91 | Any single step preserves single flight. |
| System.SingleFlightAlways | backend/utils/scheduler.js:53-91 | Single flight holds after every sequence of steps. |
| System.NoOverlappingScans | backend/utils/scheduler.js:53-91 | From process start, at most one scheduled scan run is ever in progress, exactly when the flag is set. Starts and completions alternate. The scanner is called at most once per run. |
| System.TwoTriggersOneScan | backend/routes/scan.js:100-104 | Two triggers while idle produce one `scan:started` and one run in flight. |
| System.SpeedTestsOverlap | backend/utils/scheduler.js:37-40 | The speed test has no guard: two ticks leave two measurements in flight, and nothing is broadcast. |
| System.ResultsRequestReadsCache | backend/routes/scan.js:59-64 | `GET /results` changes nothing and answers with the cache. |
| System.SubnetStepsWhileScanning | backend/routes/scan.js:46-51 | With a run in flight, a handler that sets `manualSubnet` persists and announces it. It starts no run and calls no scanner. |
| System.SubnetChangeWaitsForNextTrigger | backend/routes/scan.js:46-51 | A subnet set while a run waits on the scanner is persisted. Once that run settles, no run is left and the new subnet has not been scanned. |
| System.RestartKeepsSubnet | backend/utils/scheduler.js:97-101 | Restarting with a new scan interval starts a run whose configuration still names the stored subnet. |
| System.RestartThenResolve | backend/utils/scheduler.js:53-76 | That run reads the configuration and hands the stored subnet to the scanner. |
| System.RestartScansOldSubnet | backend/routes/scan.js:39-51 | For `{scanInterval: 30, manualSubnet: "B"}` over a stored `"A"`, the restart's run scans `"A"` when it reads the configuration before the handler writes the subnet, and the handler's rescan is dropped. The configuration then names `"B"`, which waits for the next trigger. |
| System.FailureAfterRestart | backend/routes/scan.js:43-57 | When the interval write succeeds and the disk then refuses writes, the `manualSubnet` write rejects and the handler answers 500 with nothing more changed, although a run has already started and `config:updated` has gone out. |
| System.ColdStartThenRearm | backend/utils/scheduler.js:12-35 | With no configuration file, a start runs one scan and one speed test and arms 60 s and 60 min timers. Setting the scan interval to 10 then re-arms the scan timer at 10 s and keeps the speed timer. |
| System.ReplayKeepsDevices | webui/src/pages/Scan.jsx:47-80 | Messages without `devices:updated` never change the page's list. |
| System.ApplyExtendsTrace | backend/utils/websocket.js:23-33 | A step only appends to what was broadcast. |
| System.UpdateIntervalsQuiet | backend/utils/scheduler.js:97-102 | A restart keeps the cache and broadcasts no `devices:updated`. |
| System.PerformQuiet | backend/routes/scan.js:39-51 | A `POST /config` action keeps the cache and broadcasts no `devices:updated`. |
| System.QuietStep | backend/routes/scan.js:35-108 | Every step other than a settling scan keeps the cache and broadcasts no `devices:updated`. |
| System.QuietPage | webui/src/pages/Scan.jsx:68-70 | A quiet extension of the trace leaves a page that showed the cache still showing it, whenever each message is stamped. |
| System.SettleFollowsCache | backend/utils/scheduler.js:79-87 | A settling scan keeps the page on the cache, unless devices were found and the `lastScanTime` write failed. |
| System.PageFollowsCache | webui/src/pages/Scan.jsx:68-70 | An open page showing the cache still shows it after any step, whatever the timestamps, except a scan whose `lastScanTime` write fails. |
| System.SuccessfulScanReachesPage | backend/utils/scheduler.js:79-84 | After a successful scan the page shows exactly the cached devices, with no error and no spinner. `GET /results` returns the list `devices:updated` carried. |
| System.WriteFailureRun | backend/utils/scheduler.js:76-87 | A triggered scan on a read-only disk that finds a device caches it and broadcasts only `scan:started` and a failure `scan:complete`. |
| System.WriteFailureDiverges | backend/utils/scheduler.js:79-87 | When a scan finds a device and the `lastScanTime` write fails, the page reports a failure and keeps its old list, while `GET /results` already returns the new device. |
| System.DetectedSubnetIsScanned | backend/utils/scheduler.js:64-67 | Without a manual subnet, a run resolves a subnet exactly when an interface is usable, and then it is the rendering of the first usable one. |
| System.DisplayAgreesWithScan | webui/src/pages/Scan.jsx:100 | The page shows a truthy subnet exactly when the scheduler resolves one, and then it is the same subnet. |

## Left out

- The device scanner `runFastScan` (backend/utils/network.js) and the speed test `runSpeedTest` (backend/utils/speedTest.js) are not part of this model. Their results are step parameters (`ScanOutcome`, `SpeedOutcome`).
- Real time is not modelled: there are no timer callbacks at wall-clock moments. An armed timer is recorded as its period in milliseconds, and a tick is a `ScanTick` or `SpeedTick` step. Timestamps (`new Date().toISOString()`) are opaque parameters.
- File-system details are abstracted to a file that is missing, unreadable or holds a record, plus an optional write fault. A failed write leaves the file as it was. The write fault changes only between steps, through the `DiskFault` step. Directory creation, JSON formatting and partial writes are not modelled.
- `initWebSocket`, client connection and disconnection, and `JSON.stringify` of messages are left out. `Broadcast` itself cannot add or remove clients, since the client list is its input.
- `os.networkInterfaces()` is an input: a sequence of named groups of interfaces whose address and netmask are already four octets. Splitting the dotted strings with `Number`, and the `try/catch` paths that return `null` or `[]` when the enumeration throws, are not modelled.
- `parseInt` on the interval fields of `POST /config` is not modelled: the fields arrive already parsed to integers, or absent.
- Scheduler.IntervalOr60: a truthy non-number interval becomes 60 here. That covers a non-empty string stored by hand, which JavaScript would multiply as a number, and `true`, which JavaScript would turn into a 1 s period.
- `updateConfig` is one atomic step, so the lost update between two concurrent read-modify-write calls on `config.json` is not modelled.
- `updateSchedulerInterval` is one step (`RestartWith`) although it awaits a write and then a read. A scan run or another handler step cannot land between its write and its restart.
- `SettleScan` is one step although it awaits the `lastScanTime` write. A `GET /results` that lands during that write, with the cache already replaced and the flag still set, is not interleaved.
- `GET /speed-test` (`ScanRoutes.SpeedTestRoute`) is one step: the measurement, its write and the read that builds the answer are not interleaved with other steps.
- ScanRoutes.PostConfig: the atomic request keeps the disk's write fault fixed from its first write to its last. A write that fails after an earlier one succeeded, with the 500 it produces after a restart, is not a `PostConfig` outcome. It is modelled only through `System`'s `DiskFault` step (`System.FailureAfterRestart`).
- `GET /scan` (`ScanRoutes.GetScan`) calls the scanner without the single-flight guard and is not a `System` step, so `System.NoOverlappingScans` says nothing about its scans. It can overlap a scheduled run.
- `HandlerAction` steps may come in any order, including orders no single handler produces. Safety properties proved for every step sequence therefore cover every real interleaving of `POST /config` handlers. The atomic `PostConfig` is the uninterrupted case (`System.ConfigRequestIsHandlerSteps`).
- Node clamps a timer delay that is not positive, or larger than 2^31 - 1 ms, to 1 ms. A stored interval of -5 is kept by `|| 60`, so the timer fires about every millisecond. The model records the period as given.
- ScanPage.HandleMessage: a message without `data` would throw in the page on `scan:complete`. Here every message carries data.
- `fetchConfig` and `fetchData` (the page's HTTP refetches) and all rendering are left out. `HandleMessage` only reports whether a refetch is requested.
- ScanPage.ScanNow: the request and its failure form one step. A socket message that arrives while the request is outstanding is not interleaved.
- A trigger while a run is in flight is dropped, by design of the single-flight guard. That covers the rescan that `POST /config` issues after a subnet change. The model proves this behaviour (`System.SubnetChangeWaitsForNextTrigger`) and does not queue the rescan.
- `backend/index.js` (server wiring), `GET /config`, `GET /network-info` and the presentational React components are outside the core.

=== FILE: config_manager.dfy ===
/**
 * The configuration store: a JSON document overlaid on built-in defaults.
 * The file is `Missing`, `Unreadable` (a read error or invalid JSON) or
 * `Stored(record)`; `writeFault` says whether writes fail and with what
 * message.
 */
module ConfigManager {
  import opened Wrappers
  import opened Values

  /** The defaults. `scanInterval` is in seconds and `speedTestInterval` in minutes, as the scheduler reads them. */
  const DefaultConfig: Record := map[
    "scanInterval" := Num(60),
    "speedTestInterval" := Num(60),
    "manualSubnet" := Str(""),
    "lastScanTime" := Null]

  datatype File = Missing | Unreadable | Stored(record: Record)
  datatype Disk = Disk(file: File, writeFault: Option<string>)
  datatype StoreError = StoreError(message: string)

  /** A successful read or update: the disk afterwards and the record returned. */
  datatype Read = Read(disk: Disk, config: Record)

  /** `r` is `{ ...base, ...top }`: the keys of both, `top` winning on shared keys. */
  ghost predicate Overlays(r: Record, base: Record, top: Record)
  {
    && (forall k :: k in r <==> k in base || k in top)
    && (forall k :: k in top ==> r[k] == top[k])
    && (forall k :: k in base && k !in top ==> r[k] == base[k])
  }

  /** `fs.writeFile` of the whole record; a failed write leaves the file as it was. */
  function Write(d: Disk, record: Record): Result<Disk, StoreError>
  {
    match d.writeFault
    case Some(m) => Failure(StoreError(m))
    case None => Success(d.(file := Stored(record)))
  }

  /** `ensureConfig`: a missing file is created holding the defaults. */
  function Ensure(d: Disk): Result<Disk, StoreError>
  {
    if d.file.Missing? then Write(d, DefaultConfig) else Success(d)
  }

  /**
   * `getConfig`: the defaults overlaid with the stored record, or exactly the
   * defaults when the file cannot be read or parsed. Only a failure to create
   * a missing file rejects.
   */
  function GetConfig(d: Disk): (r: Result<Read, StoreError>)
    ensures r.Failure? <==> d.file.Missing? && d.writeFault.Some?
    ensures r.Failure? ==> r.error == StoreError(d.writeFault.value)
    ensures r.Success? && d.file.Missing? ==> r.value.disk == d.(file := Stored(DefaultConfig))
    ensures r.Success? && !d.file.Missing? ==> r.value.disk == d
    ensures r.Success? && d.file.Stored? ==> Overlays(r.value.config, DefaultConfig, d.file.record)
    ensures r.Success? && !d.file.Stored? ==> r.value.config == DefaultConfig
  {
    match Ensure(d)
    case Failure(e) => Failure(e)
    case Success(d1) =>
      match d1.file
      case Stored(s) => Success(Read(d1, DefaultConfig + s))
      case _ => Success(Read(d1, DefaultConfig))
  }

  /**
   * `updateConfig(partial)`: reads the current record, overlays `partial`,
   * writes the result and returns it. A write failure rejects and leaves the
   * disk unchanged.
   */
  function UpdateConfig(d: Disk, partial: Record): (r: Result<Read, StoreError>)
    ensures r.Failure? <==> d.writeFault.Some?
    ensures r.Failure? ==> r.error == StoreError(d.writeFault.value)
    ensures r.Success? ==> r.value.disk == d.(file := Stored(r.value.config))
    ensures r.Success? ==> GetConfig(d).Success? && Overlays(r.value.config, GetConfig(d).value.config, partial)
  {
    match Ensure(d)
    case Failure(e) => Failure(e)
    case Success(d1) =>
      match GetConfig(d1)
      case Failure(e) => Failure(e)
      case Success(current) =>
        var updated := current.config + partial;
        match Write(current.disk, updated)
        case Failure(e) => Failure(e)
        case Success(d2) => Success(Read(d2, updated))
  }

  /** Every record `getConfig` returns carries every default key. */
  lemma GetConfigHasDefaultKeys(d: Disk)
    requires GetConfig(d).Success?
    ensures DefaultConfig.Keys <= GetConfig(d).value.config.Keys
  {
  }

  /** The persisted record is the returned one: a following read returns it again. */
  lemma UpdateThenGet(d: Disk, partial: Record)
    requires UpdateConfig(d, partial).Success?
    ensures GetConfig(UpdateConfig(d, partial).value.disk) == Success(UpdateConfig(d, partial).value)
  {
    var u := UpdateConfig(d, partial).value;
    GetConfigHasDefaultKeys(d);
    assert DefaultConfig + u.config == u.config;
  }

  /** Updating with no fields does not change what a read returns. */
  lemma UpdateEmptyKeepsConfig(d: Disk)
    requires UpdateConfig(d, map[]).Success?
    ensures GetConfig(UpdateConfig(d, map[]).value.disk).value.config == GetConfig(d).value.config
  {
    UpdateThenGet(d, map[]);
    var u := UpdateConfig(d, map[]).value;
    assert u.config == GetConfig(d).value.config;
  }

  /** Applying the same partial record twice is the same as applying it once. */
  lemma UpdateIdempotent(d: Disk, partial: Record)
    requires UpdateConfig(d, partial).Success?
    ensures UpdateConfig(UpdateConfig(d, partial).value.disk, partial) == UpdateConfig(d, partial)
  {
    var u := UpdateConfig(d, partial).value;
    UpdateThenGet(d, partial);
    assert u.config + partial == u.config;
  }

  /**
   * When the file cannot be read, an update starts from the defaults: the
   * stored record is replaced by the defaults overlaid with `partial`.
   */
  lemma UpdateOverUnreadable(d: Disk, partial: Record)
    requires d.file == Unreadable && d.writeFault.None?
    ensures UpdateConfig(d, partial) == Success(Read(d.(file := Stored(DefaultConfig + partial)), DefaultConfig + partial))
  {
  }
}

=== FILE: events.dfy ===
/**
 * The event protocol between the backend and the web UI: the four event
 * names, their payloads, and the message that goes over the socket.
 */
module Events {
  import opened Wrappers
  import opened Values

  /** One host reported by the scanner: an address plus optional names. */
  datatype Device = Device(ip: string, hostname: Option<string>, mac: Option<string>, vendor: Option<string>)

  const ScanStarted: string := "scan:started"
  const ScanComplete: string := "scan:complete"
  const DevicesUpdated: string := "devices:updated"
  const ConfigUpdated: string := "config:updated"

  /** The `data` object of an event. */
  datatype Data =
    | NoFields                                                               // {}
    | Completion(deviceCount: nat, subnet: Option<Value>, error: Option<string>) // scan:complete
    | DeviceList(devices: Option<seq<Device>>)                               // devices:updated
    | Settings(fields: Record)                                               // config:updated

  /** One call of `broadcast(event, data)`. */
  datatype Emission = Emission(event: string, data: Data)

  /** The serialised message every open client receives: `{event, data, timestamp}`. */
  datatype Message = Message(event: string, data: Data, timestamp: Value)

  /** `scan:complete` for a run that produced no devices: count 0 and an error text. */
  function Failed(message: string): Emission
  {
    Emission(ScanComplete, Completion(0, None, Some(message)))
  }

  /** Whether an event marks the start or the end of a scan. */
  predicate IsPhase(e: Emission)
  {
    e.event == ScanStarted || e.event == ScanComplete
  }
}

=== FILE: network_detect.dfy ===
/**
 * Subnet detection from the host's network interfaces. The interface table
 * (`os.networkInterfaces()`) is an input: a sequence of named groups in key
 * order, each holding that name's addresses in order.
 */
module NetworkDetect {
  import opened Wrappers

  type Octet = x: int | 0 <= x < 256

  /** A dotted-quad address or mask, already split into its four numbers. */
  type Quad = s: seq<Octet> | |s| == 4 witness [0, 0, 0, 0]

  datatype Iface = Iface(address: Quad, netmask: Quad, family: string, internal: bool)
  datatype Group = Group(name: string, entries: seq<Iface>)

  /** An interface tagged with the name of its group. */
  datatype Named = Named(name: string, iface: Iface)

  /** A network address and a prefix length: `a.b.c.d/p`. */
  datatype Cidr = Cidr(network: Quad, prefix: nat)

  /** One row of `getNetworkInfo`. */
  datatype NetworkEntry = NetworkEntry(name: string, address: Quad, netmask: Quad, subnet: Cidr)

  // ---------------------------------------------------------------------------
  // Bit arithmetic on naturals
  // ---------------------------------------------------------------------------

  /** Bitwise AND, least significant bit first. */
  function BitAnd(a: nat, b: nat): nat
    decreases a
  {
    if a == 0 || b == 0 then 0
    else 2 * BitAnd(a / 2, b / 2) + (if a % 2 == 1 && b % 2 == 1 then 1 else 0)
  }

  /** The number of `1` digits in the binary representation of `n`. */
  function Ones(n: nat): nat
  {
    if n == 0 then 0 else n % 2 + Ones(n / 2)
  }

  function Pow2(k: nat): nat
  {
    if k == 0 then 1 else 2 * Pow2(k - 1)
  }

  /** Bit `k` of `n`, counting from the least significant. */
  predicate Bit(n: nat, k: nat)
  {
    if k == 0 then n % 2 == 1 else Bit(n / 2, k - 1)
  }

  /** `BitAnd` is bitwise AND: each bit of the result is set exactly when it is set in both operands. */
  lemma {:induction false} BitAndBits(a: nat, b: nat, k: nat)
    ensures Bit(BitAnd(a, b), k) <==> Bit(a, k) && Bit(b, k)
    decreases k
  {
    if a == 0 || b == 0 {
      ZeroHasNoBits(k);
    } else if k > 0 {
      var r := BitAnd(a, b);
      assert r / 2 == BitAnd(a / 2, b / 2);
      BitAndBits(a / 2, b / 2, k - 1);
    }
  }

  lemma {:induction false} ZeroHasNoBits(k: nat)
    ensures !Bit(0, k)
  {
    if k > 0 {
      ZeroHasNoBits(k - 1);
    }
  }

  /** The digits of `n` in base 2, most significant first, without leading zeros. */
  function BinaryDigits(n: nat): string
  {
    if n == 0 then "" else BinaryDigits(n / 2) + [if n % 2 == 1 then '1' else '0']
  }

  /** `n.toString(2)`. */
  function Binary(n: nat): string
  {
    if n == 0 then "0" else BinaryDigits(n)
  }

  /** The number of `c` in `s`: `s.split(c).length - 1`. */
  function Occurrences(s: string, c: char): nat
  {
    if |s| == 0 then 0 else Occurrences(s[..|s| - 1], c) + (if s[|s| - 1] == c then 1 else 0)
  }

  /** `Ones` counts the `'1'` digits of the base-2 rendering, as the mask reduction does. */
  lemma {:induction false} OnesCountsBinaryDigits(n: nat)
    ensures Ones(n) == Occurrences(Binary(n), '1')
  {
    if n > 0 {
      BinaryDigitsOnes(n);
    }
  }

  lemma {:induction false} BinaryDigitsOnes(n: nat)
    ensures Ones(n) == Occurrences(BinaryDigits(n), '1')
  {
    if n > 0 {
      BinaryDigitsOnes(n / 2);
      var s := BinaryDigits(n);
      assert s[..|s| - 1] == BinaryDigits(n / 2);
    }
  }

  /** Masking never sets a bit: the result is at most either operand. */
  lemma {:induction false} BitAndBelow(a: nat, b: nat)
    ensures BitAnd(a, b) <= a && BitAnd(a, b) <= b
    decreases a
  {
    if a != 0 && b != 0 {
      BitAndBelow(a / 2, b / 2);
    }
  }

  /** Masking twice with the same mask is masking once. */
  lemma {:induction false} BitAndIdempotent(a: nat, b: nat)
    ensures BitAnd(BitAnd(a, b), b) == BitAnd(a, b)
    decreases a
  {
    var c := BitAnd(a, b);
    if a != 0 && b != 0 && c != 0 {
      var bit := if a % 2 == 1 && b % 2 == 1 then 1 else 0;
      assert c == 2 * BitAnd(a / 2, b / 2) + bit;
      assert c / 2 == BitAnd(a / 2, b / 2) && c % 2 == bit;
      BitAndIdempotent(a / 2, b / 2);
    }
  }

  /** A number below `2^k` has at most `k` one-bits. */
  lemma {:induction false} OnesBelow(n: nat, k: nat)
    requires n < Pow2(k)
    ensures Ones(n) <= k
    decreases k
  {
    if n != 0 {
      assert k > 0;
      OnesBelow(n / 2, k - 1);
    }
  }

  /** The AND of two octets, still an octet, and never above either. */
  function AndOctet(a: Octet, b: Octet): (r: Octet)
    ensures r <= a && r <= b
  {
    BitAndBelow(a, b);
    BitAnd(a, b)
  }

  /** The `reduce` of the source: the total number of one-bits of the mask parts. */
  function MaskBits(mask: seq<Octet>): nat
  {
    if |mask| == 0 then 0 else Ones(mask[0]) + MaskBits(mask[1..])
  }

  /** Each mask octet contributes at most 8 bits. */
  lemma {:induction false} MaskBitsBound(mask: seq<Octet>)
    ensures MaskBits(mask) <= 8 * |mask|
  {
    if |mask| > 0 {
      assert Pow2(8) == 256;
      OnesBelow(mask[0], 8);
      MaskBitsBound(mask[1..]);
    }
  }

  lemma MaskBitsOfQuad(mask: Quad)
    ensures MaskBits(mask) == Ones(mask[0]) + Ones(mask[1]) + Ones(mask[2]) + Ones(mask[3])
  {
    var t1 := mask[1..];
    var t2 := t1[1..];
    var t3 := t2[1..];
    assert t1[0] == mask[1] && t2[0] == mask[2] && t3[0] == mask[3];
    assert t3[1..] == [];
    assert MaskBits(t3) == Ones(mask[3]) + MaskBits(t3[1..]);
    assert MaskBits(t2) == Ones(mask[2]) + MaskBits(t3);
    assert MaskBits(t1) == Ones(mask[1]) + MaskBits(t2);
    assert MaskBits(mask) == Ones(mask[0]) + MaskBits(t1);
  }

  /**
   * `calculateSubnet(ip, netmask)`: the network octets are the ANDs of the
   * address and mask octets; the prefix length counts the mask's one-bits.
   */
  function CalculateSubnet(ip: Quad, mask: Quad): (r: Cidr)
    ensures forall i :: 0 <= i < 4 ==> r.network[i] == BitAnd(ip[i], mask[i])
    ensures forall i :: 0 <= i < 4 ==> r.network[i] <= ip[i] && r.network[i] <= mask[i]
    ensures r.prefix == Ones(mask[0]) + Ones(mask[1]) + Ones(mask[2]) + Ones(mask[3])
    ensures r.prefix <= 32
  {
    MaskBitsBound(mask);
    MaskBitsOfQuad(mask);
    Cidr([AndOctet(ip[0], mask[0]), AndOctet(ip[1], mask[1]), AndOctet(ip[2], mask[2]), AndOctet(ip[3], mask[3])],
         MaskBits(mask))
  }

  /** Recomputing the subnet from its own network address and the same mask changes nothing. */
  lemma SubnetIdempotent(ip: Quad, mask: Quad)
    ensures CalculateSubnet(CalculateSubnet(ip, mask).network, mask) == CalculateSubnet(ip, mask)
  {
    var n := CalculateSubnet(ip, mask).network;
    var n' := CalculateSubnet(n, mask).network;
    forall i | 0 <= i < 4
      ensures n'[i] == n[i]
    {
      BitAndIdempotent(ip[i], mask[i]);
    }
  }

  // ---------------------------------------------------------------------------
  // Contiguous masks
  // ---------------------------------------------------------------------------

  /** The `w`-bit number whose top `k` bits are ones and whose other bits are zeros. */
  function HighOnes(k: nat, w: nat): nat
    requires k <= w
  {
    if w == 0 then 0
    else if k == w then 2 * HighOnes(k - 1, w - 1) + 1
    else 2 * HighOnes(k, w - 1)
  }

  lemma {:induction false} HighOnesFacts(k: nat, w: nat)
    requires k <= w
    ensures HighOnes(k, w) < Pow2(w)
    ensures Ones(HighOnes(k, w)) == k
    decreases w
  {
    if w > 0 {
      if k == w {
        HighOnesFacts(k - 1, w - 1);
        var x := HighOnes(k - 1, w - 1);
        assert (2 * x + 1) / 2 == x && (2 * x + 1) % 2 == 1;
      } else {
        HighOnesFacts(k, w - 1);
        var x := HighOnes(k, w - 1);
        assert (2 * x) / 2 == x && (2 * x) % 2 == 0;
      }
    }
  }

  /** The mask octet with `k` leading ones (0, 128, 192, ..., 255). */
  function MaskOctet(k: nat): (r: Octet)
    requires k <= 8
    ensures Ones(r) == k
  {
    HighOnesFacts(k, 8);
    assert Pow2(8) == 256;
    HighOnes(k, 8)
  }

  /** How many of the `p` leading mask bits fall in octet `i`. */
  function OctetShare(p: nat, i: nat): nat
  {
    if p <= 8 * i then 0 else if p >= 8 * i + 8 then 8 else p - 8 * i
  }

  /** The contiguous mask of prefix length `p`: `p` ones followed by `32 - p` zeros. */
  function ContiguousMask(p: nat): Quad
    requires p <= 32
  {
    [MaskOctet(OctetShare(p, 0)), MaskOctet(OctetShare(p, 1)), MaskOctet(OctetShare(p, 2)), MaskOctet(OctetShare(p, 3))]
  }

  /** For a contiguous mask with `p` leading ones the prefix length is `p`. */
  lemma ContiguousPrefix(ip: Quad, p: nat)
    requires p <= 32
    ensures CalculateSubnet(ip, ContiguousMask(p)).prefix == p
  {
  }

  // ---------------------------------------------------------------------------
  // The `a.b.c.d/p` text
  // ---------------------------------------------------------------------------

  predicate IsDigit(c: char)
  {
    '0' <= c <= '9'
  }

  predicate AllDigits(s: string)
  {
    forall i :: 0 <= i < |s| ==> IsDigit(s[i])
  }

  /** Base-10 text of `n` without leading zeros, as `Number.prototype.toString` gives it. */
  function Decimal(n: nat): (s: string)
    ensures |s| > 0 && AllDigits(s)
    decreases n
  {
    if n < 10 then ["0123456789"[n]] else Decimal(n / 10) + ["0123456789"[n % 10]]
  }

  /** The value of a digit string. */
  function ParseDecimal(s: string): nat
    requires AllDigits(s)
  {
    if |s| == 0 then 0 else ParseDecimal(s[..|s| - 1]) * 10 + (s[|s| - 1] as int - '0' as int)
  }

  lemma {:induction false} DecimalRoundTrip(n: nat)
    ensures ParseDecimal(Decimal(n)) == n
    decreases n
  {
    if n >= 10 {
      DecimalRoundTrip(n / 10);
      var s := Decimal(n);
      assert s[..|s| - 1] == Decimal(n / 10);
    }
  }

  /** The length of the run of digits that starts `s`. */
  function DigitRun(s: string): (k: nat)
    ensures k <= |s| && AllDigits(s[..k])
  {
    if |s| > 0 && IsDigit(s[0]) then
      var k := 1 + DigitRun(s[1..]);
      assert forall i :: 1 <= i < k ==> s[..k][i] == s[1..][..k - 1][i - 1];
      k
    else 0
  }

  lemma {:induction false} DigitRunOf(x: string, rest: string)
    requires AllDigits(x) && (|rest| == 0 || !IsDigit(rest[0]))
    ensures DigitRun(x + rest) == |x|
  {
    if |x| > 0 {
      assert (x + rest)[1..] == x[1..] + rest;
      DigitRunOf(x[1..], rest);
    } else {
      assert x + rest == rest;
    }
  }

  /** Reads the number at the start of `s`; `None` when `s` does not start with a digit. */
  function ReadNumber(s: string): Option<(nat, string)>
  {
    var k := DigitRun(s);
    if k == 0 then None else Some((ParseDecimal(s[..k]), s[k..]))
  }

  lemma ReadDecimal(n: nat, rest: string)
    requires |rest| == 0 || !IsDigit(rest[0])
    ensures ReadNumber(Decimal(n) + rest) == Some((n, rest))
  {
    var x := Decimal(n);
    DigitRunOf(x, rest);
    assert (x + rest)[..|x|] == x && (x + rest)[|x|..] == rest;
    DecimalRoundTrip(n);
  }

  /** Reads a number followed by the separator `sep`. */
  function ReadField(s: string, sep: char): Option<(nat, string)>
  {
    match ReadNumber(s)
    case None => None
    case Some((n, rest)) => if |rest| > 0 && rest[0] == sep then Some((n, rest[1..])) else None
  }

  lemma ReadDecimalField(n: nat, sep: char, rest: string)
    requires !IsDigit(sep)
    ensures ReadField(Decimal(n) + [sep] + rest, sep) == Some((n, rest))
  {
    assert Decimal(n) + [sep] + rest == Decimal(n) + ([sep] + rest);
    ReadDecimal(n, [sep] + rest);
  }

  /** The template string `${networkAddress}/${cidr}`, with the octets joined by dots. */
  function Render(c: Cidr): (r: string)
    ensures |r| > 0
  {
    Decimal(c.network[0]) + "." + Decimal(c.network[1]) + "." + Decimal(c.network[2]) + "." +
    Decimal(c.network[3]) + "/" + Decimal(c.prefix)
  }

  /** Reads `a.b.c.d/p` back; anything else is `None`. */
  function ParseCidr(s: string): Option<Cidr>
  {
    match ReadField(s, '.')
    case None => None
    case Some((a, rest)) => ParseFrom2(a, rest)
  }

  function ParseFrom2(a: nat, s: string): Option<Cidr>
  {
    match ReadField(s, '.')
    case None => None
    case Some((b, rest)) => ParseFrom3(a, b, rest)
  }

  function ParseFrom3(a: nat, b: nat, s: string): Option<Cidr>
  {
    match ReadField(s, '.')
    case None => None
    case Some((c, rest)) => ParseFrom4(a, b, c, rest)
  }

  function ParseFrom4(a: nat, b: nat, c: nat, s: string): Option<Cidr>
  {
    match ReadField(s, '/')
    case None => None
    case Some((d, rest)) => ParsePrefix(a, b, c, d, rest)
  }

  function ParsePrefix(a: nat, b: nat, c: nat, d: nat, s: string): Option<Cidr>
  {
    match ReadNumber(s)
    case None => None
    case Some((p, rest)) =>
      if rest == [] && a < 256 && b < 256 && c < 256 && d < 256 then Some(Cidr([a, b, c, d], p)) else None
  }

  /** The rendered subnet reads back as the same network address and prefix. */
  lemma RenderRoundTrip(c: Cidr)
    ensures ParseCidr(Render(c)) == Some(c)
  {
    var n := c.network;
    var t4 := Decimal(c.prefix);
    var t3 := Decimal(n[3]) + "/" + t4;
    var t2 := Decimal(n[2]) + "." + t3;
    var t1 := Decimal(n[1]) + "." + t2;
    RenderShape(c);
    ReadDecimalField(n[0], '.', t1);
    ReadDecimalField(n[1], '.', t2);
    ReadDecimalField(n[2], '.', t3);
    ReadDecimalField(n[3], '/', t4);
    assert ReadField(Render(c), '.') == Some((n[0], t1));
    assert ReadField(t1, '.') == Some((n[1], t2));
    assert ReadField(t2, '.') == Some((n[2], t3));
    assert ReadField(t3, '/') == Some((n[3], t4));
    ParsePrefixDecimal(c);
    assert ParseFrom4(n[0], n[1], n[2], t3) == Some(c);
    assert ParseFrom3(n[0], n[1], t2) == Some(c);
    assert ParseFrom2(n[0], t1) == Some(c);
  }

  lemma ParsePrefixDecimal(c: Cidr)
    ensures ParsePrefix(c.network[0], c.network[1], c.network[2], c.network[3], Decimal(c.prefix)) == Some(c)
  {
    assert Decimal(c.prefix) + [] == Decimal(c.prefix);
    ReadDecimal(c.prefix, []);
    var n := c.network;
    assert [n[0], n[1], n[2], n[3]] == n;
  }

  /** `Render` regrouped to the right, one field at a time. */
  lemma RenderShape(c: Cidr)
    ensures Render(c) == Decimal(c.network[0]) + "." + (Decimal(c.network[1]) + "." + (Decimal(c.network[2]) + "." +
                         (Decimal(c.network[3]) + "/" + Decimal(c.prefix))))
  {
  }

  /** Distinct subnets render to distinct strings. */
  lemma RenderInjective(c1: Cidr, c2: Cidr)
    ensures Render(c1) == Render(c2) ==> c1 == c2
  {
    RenderRoundTrip(c1);
    RenderRoundTrip(c2);
  }

  // ---------------------------------------------------------------------------
  // Interface selection
  // ---------------------------------------------------------------------------

  /** The loop filter of both functions: not internal and IPv4. */
  predicate Usable(i: Iface)
  {
    !i.internal && i.family == "IPv4"
  }

  function Tag(name: string, entries: seq<Iface>): (r: seq<Named>)
    ensures |r| == |entries|
    ensures forall j :: 0 <= j < |r| ==> r[j] == Named(name, entries[j])
  {
    if |entries| == 0 then [] else [Named(name, entries[0])] + Tag(name, entries[1..])
  }

  /** The nested iteration order: every group's entries, group after group. */
  function Flatten(groups: seq<Group>): seq<Named>
  {
    if |groups| == 0 then [] else Tag(groups[0].name, groups[0].entries) + Flatten(groups[1..])
  }

  function SubnetOf(n: Named): Cidr
  {
    CalculateSubnet(n.iface.address, n.iface.netmask)
  }

  function Describe(n: Named): NetworkEntry
  {
    NetworkEntry(n.name, n.iface.address, n.iface.netmask, SubnetOf(n))
  }

  /** The subnet of the first usable interface in iteration order, if any. */
  function FirstUsable(ns: seq<Named>): Option<Cidr>
  {
    if |ns| == 0 then None
    else if Usable(ns[0].iface) then Some(SubnetOf(ns[0]))
    else FirstUsable(ns[1..])
  }

  /** The rows for the usable interfaces, in iteration order. */
  function Listed(ns: seq<Named>): seq<NetworkEntry>
  {
    if |ns| == 0 then []
    else (if Usable(ns[0].iface) then [Describe(ns[0])] else []) + Listed(ns[1..])
  }

  /** No subnet exactly when no interface is usable; otherwise the first usable one's. */
  lemma {:induction false} FirstUsableSpec(ns: seq<Named>)
    ensures FirstUsable(ns).None? <==> forall j :: 0 <= j < |ns| ==> !Usable(ns[j].iface)
    ensures FirstUsable(ns).Some? ==>
              exists j :: 0 <= j < |ns| && Usable(ns[j].iface) && FirstUsable(ns).value == SubnetOf(ns[j]) &&
                forall k :: 0 <= k < j ==> !Usable(ns[k].iface)
  {
    if |ns| > 0 && !Usable(ns[0].iface) {
      var t := ns[1..];
      FirstUsableSpec(t);
      assert forall j :: 0 < j < |ns| ==> ns[j] == t[j - 1];
      if FirstUsable(t).Some? {
        var j :| 0 <= j < |t| && Usable(t[j].iface) && FirstUsable(t).value == SubnetOf(t[j]) &&
                 forall k :: 0 <= k < j ==> !Usable(t[k].iface);
        assert ns[j + 1] == t[j];
      }
    }
  }

  /** The listing holds a row for every usable interface and only for those. */
  lemma {:induction false} ListedSpec(ns: seq<Named>)
    ensures |Listed(ns)| <= |ns|
    ensures forall k :: 0 <= k < |ns| && Usable(ns[k].iface) ==> Describe(ns[k]) in Listed(ns)
    ensures forall e :: e in Listed(ns) ==> exists k :: 0 <= k < |ns| && Usable(ns[k].iface) && e == Describe(ns[k])
  {
    if |ns| > 0 {
      var t := ns[1..];
      ListedSpec(t);
      assert forall k :: 0 < k < |ns| ==> ns[k] == t[k - 1];
      forall e | e in Listed(ns)
        ensures exists k :: 0 <= k < |ns| && Usable(ns[k].iface) && e == Describe(ns[k])
      {
        if e !in Listed(t) {
          assert Usable(ns[0].iface) && e == Describe(ns[0]);
        } else {
          var k :| 0 <= k < |t| && Usable(t[k].iface) && e == Describe(t[k]);
          assert ns[k + 1] == t[k];
        }
      }
    }
  }

  /** The first row of the listing is the first usable interface's subnet. */
  lemma {:induction false} FirstIsHeadOfListed(ns: seq<Named>)
    ensures FirstUsable(ns) == if Listed(ns) == [] then None else Some(Listed(ns)[0].subnet)
  {
    if |ns| > 0 && !Usable(ns[0].iface) {
      FirstIsHeadOfListed(ns[1..]);
    }
  }

  /** One step of the inner loop: the entry at `ei` heads what is left to visit. */
  lemma EntryStep(name: string, entries: seq<Iface>, ei: nat, tail: seq<Named>)
    requires ei < |entries|
    ensures Tag(name, entries[ei..]) + tail == [Named(name, entries[ei])] + (Tag(name, entries[ei + 1..]) + tail)
  {
    assert entries[ei..][1..] == entries[ei + 1..];
  }

  /** One step of the outer loop: group `gi`'s entries come before the later groups. */
  lemma GroupStep(groups: seq<Group>, gi: nat)
    requires gi < |groups|
    ensures Flatten(groups[gi..]) == Tag(groups[gi].name, groups[gi].entries[0..]) + Flatten(groups[gi + 1..])
  {
    assert groups[gi..][1..] == groups[gi + 1..];
    assert groups[gi].entries[0..] == groups[gi].entries;
  }

  lemma FirstUsableCons(n: Named, rest: seq<Named>)
    ensures FirstUsable([n] + rest) == if Usable(n.iface) then Some(SubnetOf(n)) else FirstUsable(rest)
  {
    assert ([n] + rest)[1..] == rest;
  }

  lemma ListedCons(n: Named, rest: seq<Named>)
    ensures Listed([n] + rest) == (if Usable(n.iface) then [Describe(n)] else []) + Listed(rest)
  {
    assert ([n] + rest)[1..] == rest;
  }

  /**
   * `getDefaultSubnet`: the nested loops with the early return of the
   * source; the subnet of the first usable interface, or null.
   */
  method GetDefaultSubnet(groups: seq<Group>) returns (r: Option<Cidr>)
    ensures r == FirstUsable(Flatten(groups))
  {
    var gi := 0;
    while gi < |groups|
      invariant 0 <= gi <= |groups|
      invariant FirstUsable(Flatten(groups)) == FirstUsable(Flatten(groups[gi..]))
    {
      var name := groups[gi].name;
      var entries := groups[gi].entries;
      GroupStep(groups, gi);
      ghost var tail := Flatten(groups[gi + 1..]);
      var ei := 0;
      while ei < |entries|
        invariant 0 <= ei <= |entries|
        invariant FirstUsable(Flatten(groups)) == FirstUsable(Tag(name, entries[ei..]) + tail)
      {
        EntryStep(name, entries, ei, tail);
        FirstUsableCons(Named(name, entries[ei]), Tag(name, entries[ei + 1..]) + tail);
        if Usable(entries[ei]) {
          return Some(CalculateSubnet(entries[ei].address, entries[ei].netmask));
        }
        ei := ei + 1;
      }
      assert entries[ei..] == [];
      assert Tag(name, entries[ei..]) + tail == tail;
      gi := gi + 1;
    }
    assert groups[gi..] == [];
    return None;
  }

  /**
   * The string `getDefaultSubnet` returns: the rendered subnet of the first
   * usable interface, never empty, and reading back as that subnet; null
   * when no interface is usable.
   */
  function Detected(groups: seq<Group>): (r: Option<string>)
    ensures r.None? <==> FirstUsable(Flatten(groups)).None?
    ensures r.Some? ==> |r.value| > 0 && ParseCidr(r.value) == FirstUsable(Flatten(groups))
  {
    match FirstUsable(Flatten(groups))
    case None => None
    case Some(c) => RenderRoundTrip(c); Some(Render(c))
  }

  /** Listing distributes over concatenation. */
  lemma {:induction false} ListedAppend(a: seq<Named>, b: seq<Named>)
    ensures Listed(a + b) == Listed(a) + Listed(b)
  {
    if |a| == 0 {
      assert a + b == b;
    } else {
      var head := if Usable(a[0].iface) then [Describe(a[0])] else [];
      assert a + b == [a[0]] + (a[1..] + b);
      ListedCons(a[0], a[1..] + b);
      ListedAppend(a[1..], b);
      assert a == [a[0]] + a[1..];
      ListedCons(a[0], a[1..]);
      assert Listed(a + b) == head + (Listed(a[1..]) + Listed(b));
    }
  }

  /** The inner loop of `getNetworkInfo`: the rows for one group's usable interfaces, in order. */
  method ListGroup(name: string, entries: seq<Iface>) returns (rows: seq<NetworkEntry>)
    ensures rows == Listed(Tag(name, entries))
  {
    rows := [];
    var ei := 0;
    while ei < |entries|
      invariant 0 <= ei <= |entries|
      invariant rows + Listed(Tag(name, entries[ei..])) == Listed(Tag(name, entries))
    {
      var entry := Named(name, entries[ei]);
      ghost var rest := Tag(name, entries[ei + 1..]);
      assert entries[ei..][1..] == entries[ei + 1..];
      assert Tag(name, entries[ei..]) == [entry] + rest;
      ListedCons(entry, rest);
      if Usable(entries[ei]) {
        var row := NetworkEntry(name, entries[ei].address, entries[ei].netmask,
                                CalculateSubnet(entries[ei].address, entries[ei].netmask));
        assert row == Describe(entry);
        assert (rows + [row]) + Listed(rest) == rows + ([row] + Listed(rest));
        rows := rows + [row];
      }
      ei := ei + 1;
    }
    assert entries[ei..] == [];
  }

  /** `getNetworkInfo`: every usable interface with its computed subnet, in order. */
  method GetNetworkInfo(groups: seq<Group>) returns (info: seq<NetworkEntry>)
    ensures info == Listed(Flatten(groups))
  {
    info := [];
    var gi := 0;
    while gi < |groups|
      invariant 0 <= gi <= |groups|
      invariant info + Listed(Flatten(groups[gi..])) == Listed(Flatten(groups))
    {
      var rows := ListGroup(groups[gi].name, groups[gi].entries);
      ghost var tail := Flatten(groups[gi + 1..]);
      GroupStep(groups, gi);
      assert groups[gi].entries[0..] == groups[gi].entries;
      ListedAppend(Tag(groups[gi].name, groups[gi].entries), tail);
      assert (info + rows) + Listed(tail) == info + (rows + Listed(tail));
      info := info + rows;
      gi := gi + 1;
    }
    assert groups[gi..] == [];
  }

  /** When the listing is non-empty, its first row's subnet is the default subnet. */
  method DefaultMatchesInfo(groups: seq<Group>) returns (info: seq<NetworkEntry>, def: Option<Cidr>)
    ensures |info| > 0 ==> def == Some(info[0].subnet)
    ensures |info| == 0 <==> def.None?
  {
    info := GetNetworkInfo(groups);
    def := GetDefaultSubnet(groups);
    FirstIsHeadOfListed(Flatten(groups));
  }
}

=== FILE: scan_page.dfy ===
/**
 * The web UI's scan page as a state machine: the event handler for socket
 * messages, the "Scan now" button and the displayed subnet.
 */
module ScanPage {
  import opened Wrappers
  import opened Values
  import opened Events

  /** The page state the event protocol drives. */
  datatype View = View(devices: seq<Device>, loading: bool, scanning: bool, error: Option<string>)

  /** The state on mount, before any data arrives. */
  const Mounted: View := View([], true, false, None)

  /** The state after a message and whether the handler refetches the configuration. */
  datatype Reaction = Reaction(view: View, refetchConfig: bool)

  /** The error text for a reported scan failure. */
  function ScanFailedText(message: string): string
  {
    "Scan failed: " + message
  }

  /**
   * `handleWebSocketMessage`: `scan:started` sets `scanning` and `loading`;
   * `scan:complete` clears both and shows or clears the error depending on a
   * truthy `data.error`; `devices:updated` replaces the device list (by `[]`
   * when the field is missing); `config:updated` and unknown events only
   * refetch or do nothing.
   */
  function HandleMessage(v: View, m: Message): (r: Reaction)
    ensures m.event == ScanStarted ==> r.view == v.(scanning := true, loading := true) && !r.refetchConfig
    ensures m.event == ScanComplete ==>
              && !r.view.scanning && !r.view.loading && r.view.devices == v.devices && r.refetchConfig
              && (r.view.error.Some? <==> m.data.Completion? && m.data.error.Some? && m.data.error.value != "")
              && (r.view.error.Some? ==> r.view.error.value == ScanFailedText(m.data.error.value))
    ensures m.event == DevicesUpdated ==>
              r.view == v.(devices := if m.data.DeviceList? && m.data.devices.Some? then m.data.devices.value else [])
              && !r.refetchConfig
    ensures m.event != ScanStarted && m.event != ScanComplete && m.event != DevicesUpdated ==>
              r.view == v && (r.refetchConfig <==> m.event == ConfigUpdated)
  {
    if m.event == ScanStarted then
      Reaction(v.(scanning := true, loading := true), false)
    else if m.event == ScanComplete then
      var error := if m.data.Completion? && m.data.error.Some? && m.data.error.value != ""
                   then Some(ScanFailedText(m.data.error.value)) else None;
      Reaction(v.(scanning := false, loading := false, error := error), true)
    else if m.event == DevicesUpdated then
      var devices := if m.data.DeviceList? && m.data.devices.Some? then m.data.devices.value else [];
      Reaction(v.(devices := devices), false)
    else if m.event == ConfigUpdated then
      Reaction(v, true)
    else
      Reaction(v, false)
  }

  /** The outcome of `axios.post("/api/scan/trigger")`. */
  datatype PostOutcome = Posted | PostFailed

  /**
   * `handleScanNow`: a no-op while scanning; otherwise `scanning` is set
   * before the request and, if the request fails, reset with an error shown.
   * Returns whether a request was sent.
   */
  function ScanNow(v: View, post: PostOutcome): (r: (View, bool))
    ensures v.scanning ==> r == (v, false)
    ensures !v.scanning ==> r.1
    ensures !v.scanning && post == Posted ==> r.0 == v.(scanning := true)
    ensures !v.scanning && post == PostFailed ==> r.0 == v.(scanning := false, error := Some("Failed to trigger scan"))
  {
    if v.scanning then (v, false)
    else
      var sent := v.(scanning := true);
      match post
      case Posted => (sent, true)
      case PostFailed => (sent.(error := Some("Failed to trigger scan"), scanning := false), true)
  }

  /** The monitored subnet shown: `manualSubnet || defaultSubnet`. */
  function DisplaySubnet(manualSubnet: Value, defaultSubnet: Option<string>): (r: Value)
    ensures Truthy(manualSubnet) ==> r == manualSubnet
    ensures !Truthy(manualSubnet) ==> r == (if defaultSubnet.Some? then Str(defaultSubnet.value) else Null)
  {
    if Truthy(manualSubnet) then manualSubnet
    else match defaultSubnet
      case Some(s) => Str(s)
      case None => Null
  }

  /** The page after a sequence of messages. */
  function Replay(v: View, ms: seq<Message>): View
    decreases |ms|
  {
    if |ms| == 0 then v else Replay(HandleMessage(v, ms[0]).view, ms[1..])
  }

  /** Messages none of which is `scan:complete` leave a scanning page scanning. */
  lemma {:induction false} ReplayKeepsScanning(v: View, ms: seq<Message>)
    requires v.scanning
    requires forall k :: 0 <= k < |ms| ==> ms[k].event != ScanComplete
    ensures Replay(v, ms).scanning
    decreases |ms|
  {
    if |ms| > 0 {
      ReplayKeepsScanning(HandleMessage(v, ms[0]).view, ms[1..]);
    }
  }

  /**
   * After a click whose request succeeded, no later click sends a request
   * until a `scan:complete` arrives, and the click after that one sends again.
   */
  lemma ClickBlocksUntilComplete(v: View, ms: seq<Message>, done: Message, post: PostOutcome)
    requires !v.scanning
    requires forall k :: 0 <= k < |ms| ==> ms[k].event != ScanComplete
    requires done.event == ScanComplete
    ensures var waiting := Replay(ScanNow(v, Posted).0, ms);
            && ScanNow(waiting, post) == (waiting, false)
            && ScanNow(HandleMessage(waiting, done).view, post).1
  {
    ReplayKeepsScanning(ScanNow(v, Posted).0, ms);
  }
}

=== FILE: scan_routes.dfy ===
/**
 * The decision logic of the HTTP routes that drive the scheduler. A route
 * becomes a pure function from the request fields (already parsed) and the
 * world to the world afterwards and the response.
 */
module ScanRoutes {
  import opened Wrappers
  import opened Values
  import opened Events
  import opened ConfigManager
  import opened Scheduler

  /** A route's effect: the world afterwards and the HTTP status sent. */
  datatype Handled = Handled(world: World, status: int)

  // ---------------------------------------------------------------------------
  // POST /config
  // ---------------------------------------------------------------------------

  /** The steps a `POST /config` request asks for, in the order the handler runs them. */
  datatype Action =
    | RestartWith(settings: Record)   // await updateSchedulerInterval(updates)
    | PersistFields(partial: Record)  // await updateConfig({manualSubnet})
    | Announce(data: Data)            // broadcast('config:updated', ...)
    | Rescan                          // runScheduledScan(), not awaited

  /** A truthy interval field after `parseInt`: present and non-zero. */
  predicate Given(field: Option<int>)
  {
    field.Some? && field.value != 0
  }

  /** The interval updates: only the truthy fields. */
  function IntervalUpdates(scanInterval: Option<int>, speedTestInterval: Option<int>): (r: Record)
    ensures "scanInterval" in r <==> Given(scanInterval)
    ensures "speedTestInterval" in r <==> Given(speedTestInterval)
    ensures Given(scanInterval) ==> r["scanInterval"] == Num(scanInterval.value)
    ensures Given(speedTestInterval) ==> r["speedTestInterval"] == Num(speedTestInterval.value)
    ensures r.Keys <= {"scanInterval", "speedTestInterval"}
  {
    (if Given(scanInterval) then map["scanInterval" := Num(scanInterval.value)] else map[])
    + (if Given(speedTestInterval) then map["speedTestInterval" := Num(speedTestInterval.value)] else map[])
  }

  /**
   * The branching of `POST /config`: the scheduler is restarted only when an
   * interval field is truthy, and a present `manualSubnet` (even `""` or
   * `null`) is persisted, announced and followed by a scan; interval handling
   * comes first.
   */
  function ConfigActions(scanInterval: Option<int>, speedTestInterval: Option<int>, manualSubnet: Option<Value>)
    : (r: seq<Action>)
    ensures (|r| > 0 && r[0].RestartWith?) <==> Given(scanInterval) || Given(speedTestInterval)
    ensures forall i :: 0 <= i < |r| && r[i].RestartWith? ==>
              i == 0 && r[i].settings == IntervalUpdates(scanInterval, speedTestInterval)
    ensures manualSubnet.Some? ==>
              |r| >= 3 && r[|r| - 3..] == [PersistFields(map["manualSubnet" := manualSubnet.value]),
                               Announce(Settings(map["manualSubnet" := manualSubnet.value])),
                               Rescan]
    ensures manualSubnet.None? ==> forall i :: 0 <= i < |r| ==> r[i].RestartWith?
    ensures |r| == (if Given(scanInterval) || Given(speedTestInterval) then 1 else 0) + (if manualSubnet.Some? then 3 else 0)
  {
    var restart := RestartWith(IntervalUpdates(scanInterval, speedTestInterval));
    match manualSubnet
    case None => if Given(scanInterval) || Given(speedTestInterval) then [restart] else []
    case Some(v) =>
      var persist := PersistFields(map["manualSubnet" := v]);
      var announce := Announce(Settings(map["manualSubnet" := v]));
      if Given(scanInterval) || Given(speedTestInterval) then [restart, persist, announce, Rescan]
      else [persist, announce, Rescan]
  }

  /** The actions that await a configuration write. */
  predicate Writes(a: Action)
  {
    a.RestartWith? || a.PersistFields?
  }

  /**
   * One action against the world. Only a write can reject, and it rejects
   * exactly when the disk refuses writes, changing nothing.
   */
  function Perform(w: World, a: Action): (r: Settled)
    ensures r.rejected.Some? <==> Writes(a) && w.disk.writeFault.Some?
    ensures r.rejected.Some? ==> r.world == w
    ensures r.world.disk.writeFault == w.disk.writeFault
  {
    match a
    case RestartWith(settings) => UpdateIntervals(w, settings)
    case PersistFields(partial) => Persist(w, partial)
    case Announce(data) => Settled(Emit(w, Emission(ConfigUpdated, data)), None)
    case Rescan => Settled(BeginScan(w), None)
  }

  /**
   * The actions in order; the first rejection stops the handler. On a
   * writable disk nothing rejects; on a read-only disk a list that starts
   * with a write rejects at once and changes nothing.
   */
  function PerformAll(w: World, actions: seq<Action>): (r: Settled)
    ensures |actions| == 0 ==> r == Settled(w, None)
    ensures |r.world.trace| >= |w.trace|
    ensures r.world.disk.writeFault == w.disk.writeFault
    ensures r.rejected.Some? ==> w.disk.writeFault.Some?
    ensures |actions| > 0 && Writes(actions[0]) && w.disk.writeFault.Some? ==> r.rejected.Some? && r.world == w
    decreases |actions|
  {
    if |actions| == 0 then Settled(w, None)
    else
      var first := Perform(w, actions[0]);
      if first.rejected.Some? then first else PerformAll(first.world, actions[1..])
  }

  /**
   * `POST /config`: 200 after all actions; 500, with nothing changed, exactly
   * when the request asks for anything and the configuration cannot be written.
   */
  function PostConfig(w: World, scanInterval: Option<int>, speedTestInterval: Option<int>, manualSubnet: Option<Value>)
    : (r: Handled)
    ensures r.status == 200 || r.status == 500
    ensures r.status == 500 <==>
              (Given(scanInterval) || Given(speedTestInterval) || manualSubnet.Some?) && w.disk.writeFault.Some?
    ensures r.status == 500 ==> r.world == w
    ensures !Given(scanInterval) && !Given(speedTestInterval) && manualSubnet.None? ==> r == Handled(w, 200)
  {
    var actions := ConfigActions(scanInterval, speedTestInterval, manualSubnet);
    var done := PerformAll(w, actions);
    assert |actions| > 0 <==> Given(scanInterval) || Given(speedTestInterval) || manualSubnet.Some?;
    assert |actions| > 0 ==> Writes(actions[0]);
    Handled(done.world, if done.rejected.Some? then 500 else 200)
  }

  /**
   * Setting a truthy manual subnet while no scan runs persists it, announces
   * it and starts a scan at once; when that scan reads its configuration it
   * hands exactly that subnet to the scanner.
   */
  lemma ManualSubnetIsScanned(w: World, subnet: Value, detected: Option<string>)
    requires !w.isScanning && w.disk.writeFault.None? && Truthy(subnet)
    ensures var h := PostConfig(w, None, None, Some(subnet));
            && h.status == 200
            && h.world.isScanning && h.world.reading == w.reading + 1
            && h.world.trace == w.trace + [Emission(ConfigUpdated, Settings(map["manualSubnet" := subnet])),
                                           Emission(ScanStarted, NoFields)]
            && ResolveScan(h.world, detected).scannerCalls == w.scannerCalls + [subnet]
            && ResolveScan(h.world, detected).scanning == w.scanning + [subnet]
  {
    var after := SubnetRequested(w, subnet);
    SubnetRequestSteps(w, subnet);
    ManualSubnetRequest(w, subnet);
    assert ResolveSubnet(GetConfig(after.disk).value.config, detected) == Some(subnet);
  }

  /**
   * Setting a manual subnet while a scan runs persists and announces it, but
   * the handler's own `runScheduledScan()` meets the guard: no scan starts,
   * and the run in flight keeps the subnet it already resolved.
   */
  lemma RescanDroppedWhileScanning(w: World, subnet: Value)
    requires w.isScanning && w.disk.writeFault.None?
    ensures var h := PostConfig(w, None, None, Some(subnet));
            && h.status == 200
            && h.world.trace == w.trace + [Emission(ConfigUpdated, Settings(map["manualSubnet" := subnet]))]
            && h.world.reading == w.reading && h.world.scanning == w.scanning
            && h.world.scannerCalls == w.scannerCalls
            && GetConfig(h.world.disk).Success?
            && Lookup(GetConfig(h.world.disk).value.config, "manualSubnet") == subnet
  {
    SubnetRequestSteps(w, subnet);
    SubnetStored(w.disk, subnet);
  }

  /** The world after a `POST /config` that carries only `manualSubnet` and whose writes succeed. */
  function SubnetRequested(w: World, subnet: Value): World
    requires w.disk.writeFault.None?
  {
    var field := map["manualSubnet" := subnet];
    BeginScan(Emit(w.(disk := UpdateConfig(w.disk, field).value.disk), Emission(ConfigUpdated, Settings(field))))
  }

  /** Right after the request a scan is in flight and the configuration names the new subnet. */
  lemma ManualSubnetRequest(w: World, subnet: Value)
    requires !w.isScanning && w.disk.writeFault.None?
    ensures var after := SubnetRequested(w, subnet);
            && after.isScanning && after.reading == w.reading + 1 && after.scanning == w.scanning
            && after.trace == w.trace + [Emission(ConfigUpdated, Settings(map["manualSubnet" := subnet])),
                                         Emission(ScanStarted, NoFields)]
            && after.scannerCalls == w.scannerCalls
            && GetConfig(after.disk).Success?
            && Lookup(GetConfig(after.disk).value.config, "manualSubnet") == subnet
  {
    SubnetStored(w.disk, subnet);
  }

  /** After persisting `manualSubnet`, a read returns it. */
  lemma SubnetStored(d: Disk, subnet: Value)
    requires d.writeFault.None?
    ensures var written := UpdateConfig(d, map["manualSubnet" := subnet]).value.disk;
            GetConfig(written).Success? && Lookup(GetConfig(written).value.config, "manualSubnet") == subnet
  {
    UpdateThenGet(d, map["manualSubnet" := subnet]);
  }

  /** A request carrying only `manualSubnet` runs persist, announce and rescan, in that order. */
  lemma SubnetRequestSteps(w: World, subnet: Value)
    requires w.disk.writeFault.None?
    ensures PostConfig(w, None, None, Some(subnet)) == Handled(SubnetRequested(w, subnet), 200)
  {
    var field := map["manualSubnet" := subnet];
    var persist := PersistFields(field);
    var announce := Announce(Settings(field));
    var w1 := Persist(w, field).world;
    var w2 := Emit(w1, Emission(ConfigUpdated, Settings(field)));
    assert ConfigActions(None, None, Some(subnet)) == [persist, announce, Rescan];
    PerformAllCons(w2, Rescan, []);
    PerformAllCons(w1, announce, [Rescan]);
    PerformAllCons(w, persist, [announce, Rescan]);
  }

  /** `PerformAll` on a non-empty list: the first action, then the rest unless it rejected. */
  lemma PerformAllCons(w: World, a: Action, rest: seq<Action>)
    ensures PerformAll(w, [a] + rest) ==
            if Perform(w, a).rejected.Some? then Perform(w, a) else PerformAll(Perform(w, a).world, rest)
  {
    assert ([a] + rest)[0] == a && ([a] + rest)[1..] == rest;
  }

  // ---------------------------------------------------------------------------
  // GET /results, POST /scan/trigger, GET /scan, GET /speed-test
  // ---------------------------------------------------------------------------

  /** `GET /results`: the scheduler's cache, verbatim. */
  function GetResults(w: World): (r: seq<Device>)
    ensures r == w.latestResults
  {
    GetLatestResults(w)
  }

  /**
   * `POST /scan/trigger`: starts a scan without awaiting it and always
   * answers success, including when the single-flight guard drops it.
   */
  function TriggerScan(w: World): (r: Handled)
    ensures r.status == 200
    ensures w.isScanning ==> r.world == w
    ensures !w.isScanning ==> r.world.isScanning && r.world.trace == w.trace + [Emission(ScanStarted, NoFields)]
  {
    Handled(BeginScan(w), 200)
  }

  /** The body of a `GET /scan` response. */
  datatype ScanReply =
    | Scanned(devices: seq<Device>, subnet: string)
    | NoSubnetDetected
    | ScanFailed

  /** A `GET /scan` response, and the subnet handed to the scanner if it ran. */
  datatype ScanResponse = ScanResponse(status: int, reply: ScanReply, scannedWith: Option<string>)

  /**
   * `GET /scan`: scans `query.subnet || defaultSubnet` directly, bypassing
   * the scheduler; with neither it answers 400 without scanning.
   */
  function GetScan(querySubnet: Option<string>, detected: Option<string>, outcome: ScanOutcome): (r: ScanResponse)
    ensures querySubnet.Some? && querySubnet.value != "" ==> r.scannedWith == querySubnet
    ensures (querySubnet.None? || querySubnet.value == "") ==>
              r.scannedWith == (if detected.Some? && detected.value != "" then detected else None)
    ensures r.scannedWith.None? <==> r.status == 400
    ensures r.status == 200 <==> r.scannedWith.Some? && outcome.Found?
    ensures r.status == 200 ==> r.reply == Scanned(outcome.devices, r.scannedWith.value)
  {
    var subnet := if querySubnet.Some? && querySubnet.value != "" then querySubnet
                  else if detected.Some? && detected.value != "" then detected
                  else None;
    match subnet
    case None => ScanResponse(400, NoSubnetDetected, None)
    case Some(s) =>
      match outcome
      case Found(devices) => ScanResponse(200, Scanned(devices, s), subnet)
      case ScanError(_) => ScanResponse(500, ScanFailed, subnet)
  }

  /**
   * `GET /scan` picks its subnet by the same rule as a scheduled scan, with
   * the query parameter in the place of `manualSubnet`.
   */
  lemma GetScanAgreesWithSchedule(querySubnet: Option<string>, detected: Option<string>, outcome: ScanOutcome)
    ensures var config: Record := if querySubnet.Some? then map["manualSubnet" := Str(querySubnet.value)] else map[];
            var r := GetScan(querySubnet, detected, outcome);
            && (r.scannedWith.None? <==> ResolveSubnet(config, detected).None?)
            && (r.scannedWith.Some? ==> ResolveSubnet(config, detected) == Some(Str(r.scannedWith.value)))
  {
  }

  /** The body of a `GET /speed-test` response: the stored measurement fields. */
  datatype SpeedReply = SpeedReply(speed: Value, upload: Value, ping: Value, timestamp: Value) | SpeedFailed

  /**
   * `GET /speed-test`: awaits the shared speed-test path, then reads the
   * configuration back; a failed measurement still answers with the previous
   * stored values, and only a failed read answers 500.
   */
  function SpeedTestRoute(w: World, outcome: SpeedOutcome): (r: (World, SpeedReply))
    ensures r.0 == TriggerSpeedTest(w, outcome).(disk := r.0.disk)
    ensures r.1 == SpeedFailed <==> GetConfig(w.disk).Failure?
    ensures outcome.Measured? && w.disk.writeFault.None? ==>
              r.1 == SpeedReply(outcome.download, outcome.upload, outcome.ping, outcome.timestamp)
    ensures outcome.SpeedError? && GetConfig(w.disk).Success? ==>
              var before := GetConfig(w.disk).value.config;
              r.1 == SpeedReply(Lookup(before, "networkSpeed"), Lookup(before, "uploadSpeed"),
                                Lookup(before, "ping"), Lookup(before, "lastSpeedTest"))
  {
    var settled := TriggerSpeedTest(w, outcome);
    match GetConfig(settled.disk)
    case Failure(_) => (settled, SpeedFailed)
    case Success(read) =>
      (settled.(disk := read.disk),
       SpeedReply(Lookup(read.config, "networkSpeed"), Lookup(read.config, "uploadSpeed"),
                  Lookup(read.config, "ping"), Lookup(read.config, "lastSpeedTest")))
  }
}

=== FILE: scheduler.dfy ===
/**
 * The scheduler: the single-flight scan guard, the latest-results cache,
 * the two interval timers and the speed-test path.
 *
 * JavaScript's `await` lets other work run in the middle of a scan, so a
 * scan is three steps, cut at its two `await`s: `BeginScan` is the
 * synchronous prefix (the guard, the flag and `scan:started`),
 * `ResolveScan` reads the configuration, picks the subnet and calls the
 * scanner, and `SettleScan` handles what the scanner returned. The
 * auto-detected subnet, the scanner's outcome and the clock reading are
 * inputs. A speed test is likewise `LaunchSpeedTest` and `SettleSpeedTest`.
 */
module Scheduler {
  import opened Wrappers
  import opened Values
  import opened Events
  import opened ConfigManager

  const NoSubnetMessage: string := "No subnet configured"

  /** What `runFastScan(subnet)` resolved or rejected with. */
  datatype ScanOutcome = Found(devices: seq<Device>) | ScanError(message: string)

  /** What `runSpeedTest()` resolved or rejected with; the measurements are opaque. */
  datatype SpeedOutcome =
    | Measured(download: Value, upload: Value, ping: Value, timestamp: Value)
    | SpeedError(message: string)

  /**
   * The module state of the scheduler together with the disk and what the
   * outside world has seen: `trace` lists the `broadcast` calls in order,
   * `scannerCalls` the subnets handed to the scanner. `reading` counts the
   * scan runs suspended at the configuration read, `scanning` lists the
   * subnets of the runs suspended at the scanner, and `pendingSpeedTests`
   * counts the speed tests in progress. A timer slot holds the period, in
   * milliseconds, of the armed `setInterval`.
   */
  datatype World = World(
    isScanning: bool,
    latestResults: seq<Device>,
    scanTimer: Option<int>,
    speedTimer: Option<int>,
    disk: Disk,
    trace: seq<Emission>,
    scannerCalls: seq<Value>,
    reading: nat,
    scanning: seq<Value>,
    pendingSpeedTests: nat)

  /** A settled promise: the world afterwards and the rejection message, if it rejected. */
  datatype Settled = Settled(world: World, rejected: Option<string>)

  /** The module state at process start. */
  function Boot(disk: Disk): World
  {
    World(false, [], None, None, disk, [], [], 0, [], 0)
  }

  /** One `broadcast(event, data)` call. */
  function Emit(w: World, e: Emission): World
  {
    w.(trace := w.trace + [e])
  }

  // ---------------------------------------------------------------------------
  // runScheduledScan
  // ---------------------------------------------------------------------------

  /** The scan runs suspended at an `await`. */
  function Runs(w: World): nat
  {
    w.reading + |w.scanning|
  }

  /**
   * The synchronous prefix of `runScheduledScan`: a scan entered while one is
   * in progress returns at once; otherwise the flag is set and `scan:started`
   * is broadcast, and nothing else changes.
   */
  function BeginScan(w: World): (r: World)
    ensures w.isScanning ==> r == w
    ensures !w.isScanning ==> r.isScanning && r.reading == w.reading + 1
    ensures !w.isScanning ==> r.trace == w.trace + [Emission(ScanStarted, NoFields)]
    ensures !w.isScanning ==> r == w.(isScanning := true, reading := w.reading + 1, trace := r.trace)
  {
    if w.isScanning then w
    else Emit(w.(isScanning := true, reading := w.reading + 1), Emission(ScanStarted, NoFields))
  }

  /** The subnet to scan: a truthy `manualSubnet`, else the auto-detected one, else none. */
  function ResolveSubnet(config: Record, detected: Option<string>): (r: Option<Value>)
    ensures Truthy(Lookup(config, "manualSubnet")) ==> r == Some(Lookup(config, "manualSubnet"))
    ensures !Truthy(Lookup(config, "manualSubnet")) ==>
              (r.Some? <==> detected.Some? && detected.value != "") && (r.Some? ==> r.value == Str(detected.value))
    ensures r.Some? ==> Truthy(r.value)
  {
    var manual := Lookup(config, "manualSubnet");
    if Truthy(manual) then Some(manual)
    else match detected
      case Some(s) => if s != "" then Some(Str(s)) else None
      case None => None
  }

  /** Whether a run resuming from its configuration read goes on to the scanner. */
  predicate Proceeds(d: Disk, detected: Option<string>)
  {
    GetConfig(d).Success? && ResolveSubnet(GetConfig(d).value.config, detected).Some?
  }

  /**
   * A run resumes from `await getConfig()`: it resolves the subnet from the
   * configuration as it reads now. With no subnet, or when the read rejects,
   * it reports a failure and clears the flag; otherwise it calls the scanner
   * with that subnet and suspends again.
   */
  function ResolveScan(w: World, detected: Option<string>): (r: World)
    requires w.reading > 0
    ensures r.reading == w.reading - 1 && r.latestResults == w.latestResults
    ensures r.scanTimer == w.scanTimer && r.speedTimer == w.speedTimer && r.pendingSpeedTests == w.pendingSpeedTests
    ensures Proceeds(w.disk, detected) ==>
              var subnet := ResolveSubnet(GetConfig(w.disk).value.config, detected).value;
              && r.scanning == w.scanning + [subnet] && r.scannerCalls == w.scannerCalls + [subnet]
              && r.trace == w.trace && r.isScanning == w.isScanning
              && r.disk == GetConfig(w.disk).value.disk
    ensures !Proceeds(w.disk, detected) ==>
              && r.scanning == w.scanning && r.scannerCalls == w.scannerCalls && !r.isScanning
              && |r.trace| == |w.trace| + 1 && r.trace[..|w.trace|] == w.trace
              && r.trace[|w.trace|].event == ScanComplete && r.trace[|w.trace|].data.Completion?
              && r.trace[|w.trace|].data.deviceCount == 0 && r.trace[|w.trace|].data.error.Some?
  {
    var released := w.(isScanning := false, reading := w.reading - 1);
    match GetConfig(w.disk)
    case Failure(e) => Emit(released, Failed(e.message))
    case Success(read) =>
      match ResolveSubnet(read.config, detected)
      case None => Emit(released.(disk := read.disk), Failed(NoSubnetMessage))
      case Some(subnet) =>
        w.(disk := read.disk, reading := w.reading - 1,
           scanning := w.scanning + [subnet], scannerCalls := w.scannerCalls + [subnet])
  }

  /** With no subnet to scan: exactly one `scan:complete{0, 'No subnet configured'}`, no scanner call, cache kept. */
  lemma ResolveWithoutSubnet(w: World, detected: Option<string>)
    requires w.reading > 0
    requires GetConfig(w.disk).Success? && ResolveSubnet(GetConfig(w.disk).value.config, detected).None?
    ensures ResolveScan(w, detected).trace == w.trace + [Failed(NoSubnetMessage)]
    ensures ResolveScan(w, detected).scannerCalls == w.scannerCalls
    ensures !ResolveScan(w, detected).isScanning
  {
  }

  /**
   * A run resumes from `await runFastScan(subnet)`: on success it replaces the
   * cache, persists `lastScanTime` and reports the count and the subnet, then
   * the devices; a rejection of either await reports a failure instead.
   * Every path ends by clearing the flag.
   */
  function SettleScan(w: World, outcome: ScanOutcome, now: Value): (r: World)
    requires |w.scanning| > 0
    ensures !r.isScanning && r.scanning == w.scanning[1..] && r.reading == w.reading
    ensures r.scannerCalls == w.scannerCalls
    ensures r.scanTimer == w.scanTimer && r.speedTimer == w.speedTimer && r.pendingSpeedTests == w.pendingSpeedTests
    ensures |w.trace| < |r.trace| <= |w.trace| + 2 && r.trace[..|w.trace|] == w.trace
    ensures r.trace[|w.trace|].event == ScanComplete && r.trace[|w.trace|].data.Completion?
    ensures |r.trace| == |w.trace| + 2 <==> r.trace[|w.trace|].data.error.None?
    ensures |r.trace| == |w.trace| + 2 ==>
              && r.trace[|w.trace| + 1] == Emission(DevicesUpdated, DeviceList(Some(r.latestResults)))
              && r.trace[|w.trace|].data.deviceCount == |r.latestResults|
              && r.trace[|w.trace|].data.subnet == Some(w.scanning[0])
    ensures r.trace[|w.trace|].data.error.Some? ==> r.trace[|w.trace|].data.deviceCount == 0
    ensures r.latestResults == w.latestResults || (outcome.Found? && r.latestResults == outcome.devices)
  {
    var subnet := w.scanning[0];
    var released := w.(isScanning := false, scanning := w.scanning[1..]);
    match outcome
    case ScanError(message) => Emit(released, Failed(message))
    case Found(devices) =>
      var cached := released.(latestResults := devices);
      match UpdateConfig(w.disk, map["lastScanTime" := now])
      case Failure(e) => Emit(cached, Failed(e.message))
      case Success(written) =>
        var done := cached.(disk := written.disk);
        Emit(Emit(done, Emission(ScanComplete, Completion(|devices|, Some(subnet), None))),
             Emission(DevicesUpdated, DeviceList(Some(devices))))
  }

  /**
   * A successful scan: the cache becomes the device list, `lastScanTime` is
   * persisted, and the trace gains `scan:complete{count, subnet}` then
   * `devices:updated{devices}`.
   */
  lemma SettleWithDevices(w: World, devices: seq<Device>, now: Value)
    requires |w.scanning| > 0 && w.disk.writeFault.None?
    ensures var r := SettleScan(w, Found(devices), now);
            && r.latestResults == devices
            && r.trace == w.trace + [Emission(ScanComplete, Completion(|devices|, Some(w.scanning[0]), None)),
                                     Emission(DevicesUpdated, DeviceList(Some(devices)))]
            && GetConfig(r.disk).Success? && Lookup(GetConfig(r.disk).value.config, "lastScanTime") == now
  {
    UpdateThenGet(w.disk, map["lastScanTime" := now]);
  }

  /** A scanner failure: `scan:complete{0, message}`, no `devices:updated`, cache and disk kept. */
  lemma SettleWithScanError(w: World, message: string, now: Value)
    requires |w.scanning| > 0
    ensures var r := SettleScan(w, ScanError(message), now);
            && r.trace == w.trace + [Failed(message)]
            && r.latestResults == w.latestResults
            && r.disk == w.disk
  {
  }

  /**
   * A failed `lastScanTime` write after the scanner succeeded: the cache is
   * already replaced, yet the run reports `scan:complete{0, message}` and
   * sends no `devices:updated`.
   */
  lemma SettleWithWriteError(w: World, devices: seq<Device>, now: Value)
    requires |w.scanning| > 0 && w.disk.writeFault.Some?
    ensures var r := SettleScan(w, Found(devices), now);
            && r.latestResults == devices
            && r.trace == w.trace + [Failed(w.disk.writeFault.value)]
            && r.disk == w.disk
  {
  }

  // ---------------------------------------------------------------------------
  // runScheduledSpeedTest / triggerSpeedTest
  // ---------------------------------------------------------------------------

  /** The four fields a successful speed test merges into the configuration. */
  function SpeedFields(m: SpeedOutcome): (r: Record)
    requires m.Measured?
    ensures r.Keys == {"networkSpeed", "uploadSpeed", "ping", "lastSpeedTest"}
  {
    map["networkSpeed" := m.download, "uploadSpeed" := m.upload, "ping" := m.ping, "lastSpeedTest" := m.timestamp]
  }

  /** A speed test starts: it has no guard and changes nothing before its first `await`. */
  function LaunchSpeedTest(w: World): World
  {
    w.(pendingSpeedTests := w.pendingSpeedTests + 1)
  }

  /**
   * A speed test settles: a measurement is merged into the configuration; a
   * failed measurement or a failed write is swallowed and the disk kept.
   * No event is broadcast.
   */
  function SettleSpeedTest(w: World, outcome: SpeedOutcome): (r: World)
    requires w.pendingSpeedTests > 0
    ensures r == w.(pendingSpeedTests := w.pendingSpeedTests - 1, disk := r.disk)
    ensures outcome.SpeedError? || w.disk.writeFault.Some? ==> r.disk == w.disk
    ensures outcome.Measured? && w.disk.writeFault.None? ==>
              r.disk == w.disk.(file := Stored(UpdateConfig(w.disk, SpeedFields(outcome)).value.config))
  {
    var settled := w.(pendingSpeedTests := w.pendingSpeedTests - 1);
    match outcome
    case SpeedError(_) => settled
    case Measured(_, _, _, _) =>
      match UpdateConfig(w.disk, SpeedFields(outcome))
      case Failure(_) => settled
      case Success(written) => settled.(disk := written.disk)
  }

  /** After a successful speed test exactly the four measurement fields change in what a read returns. */
  lemma SpeedTestMergesFields(w: World, outcome: SpeedOutcome)
    requires w.pendingSpeedTests > 0 && outcome.Measured? && w.disk.writeFault.None?
    ensures var before := GetConfig(w.disk).value.config;
            var after := GetConfig(SettleSpeedTest(w, outcome).disk).value.config;
            && after.Keys == before.Keys + SpeedFields(outcome).Keys
            && after["networkSpeed"] == outcome.download && after["uploadSpeed"] == outcome.upload
            && after["ping"] == outcome.ping && after["lastSpeedTest"] == outcome.timestamp
            && forall k :: k in before && k !in SpeedFields(outcome) ==> after[k] == before[k]
  {
    UpdateThenGet(w.disk, SpeedFields(outcome));
  }

  /** `triggerSpeedTest`: the manual trigger awaits the same path as the timer. */
  function TriggerSpeedTest(w: World, outcome: SpeedOutcome): (r: World)
    ensures r.pendingSpeedTests == w.pendingSpeedTests && r.trace == w.trace
    ensures r == w.(disk := r.disk)
  {
    SettleSpeedTest(LaunchSpeedTest(w), outcome)
  }

  // ---------------------------------------------------------------------------
  // startScheduler / updateSchedulerInterval
  // ---------------------------------------------------------------------------

  /** `value || 60` for an interval read from the configuration. */
  function IntervalOr60(v: Value): (r: int)
    ensures v.Num? && v.n != 0 ==> r == v.n
    ensures !Truthy(v) ==> r == 60
    ensures r != 0
  {
    match v
    case Num(n) => if n != 0 then n else 60
    case _ => 60
  }

  /**
   * `startScheduler`: reads the configuration, starts one scan and one speed
   * test at once, and replaces both timers: the scan period is
   * `scanInterval || 60` seconds and the speed-test period
   * `speedTestInterval || 60` minutes. Only the configuration read can reject.
   */
  function Start(w: World): (r: Settled)
    ensures r.rejected.Some? <==> GetConfig(w.disk).Failure?
    ensures r.world.disk.writeFault == w.disk.writeFault
    ensures r.rejected.Some? ==> r.world == w
    ensures r.rejected.None? ==>
              var config := GetConfig(w.disk).value.config;
              && r.world.scanTimer == Some(IntervalOr60(Lookup(config, "scanInterval")) * 1000)
              && r.world.speedTimer == Some(IntervalOr60(Lookup(config, "speedTestInterval")) * 60 * 1000)
              && r.world.pendingSpeedTests == w.pendingSpeedTests + 1
              && r.world.disk == GetConfig(w.disk).value.disk
              && r.world.latestResults == w.latestResults
              && r.world.scanning == w.scanning && r.world.scannerCalls == w.scannerCalls
              && (w.isScanning ==> r.world.trace == w.trace && r.world.reading == w.reading)
              && (!w.isScanning ==> r.world.trace == w.trace + [Emission(ScanStarted, NoFields)] &&
                                    r.world.isScanning && r.world.reading == w.reading + 1)
  {
    match GetConfig(w.disk)
    case Failure(e) => Settled(w, Some(e.message))
    case Success(read) =>
      var seconds := IntervalOr60(Lookup(read.config, "scanInterval"));
      var minutes := IntervalOr60(Lookup(read.config, "speedTestInterval"));
      var running := LaunchSpeedTest(BeginScan(w.(disk := read.disk)));
      Settled(running.(scanTimer := Some(seconds * 1000), speedTimer := Some(minutes * 60 * 1000)), None)
  }

  /**
   * `updateSchedulerInterval(settings)`: persists the settings, restarts the
   * scheduler with them, then broadcasts `config:updated{settings}`. A
   * rejection of either await skips the rest.
   */
  function UpdateIntervals(w: World, settings: Record): (r: Settled)
    ensures r.rejected.Some? <==> w.disk.writeFault.Some?
    ensures r.world.disk.writeFault == w.disk.writeFault
    ensures r.rejected.Some? ==> r.world == w
    ensures r.rejected.None? ==>
              && |r.world.trace| > 0
              && r.world.trace[|r.world.trace| - 1] == Emission(ConfigUpdated, Settings(settings))
              && r.world.pendingSpeedTests == w.pendingSpeedTests + 1
  {
    match UpdateConfig(w.disk, settings)
    case Failure(e) => Settled(w, Some(e.message))
    case Success(written) =>
      var restarted := Start(w.(disk := written.disk));
      match restarted.rejected
      case Some(_) => restarted
      case None => Settled(Emit(restarted.world, Emission(ConfigUpdated, Settings(settings))), None)
  }

  /** A new truthy interval takes effect at once: the restarted timers carry the new periods. */
  lemma UpdateIntervalsRearms(w: World, settings: Record)
    requires w.disk.writeFault.None?
    ensures var r := UpdateIntervals(w, settings).world;
            && (Lookup(settings, "scanInterval").Num? && Lookup(settings, "scanInterval").n != 0 ==>
                  r.scanTimer == Some(Lookup(settings, "scanInterval").n * 1000))
            && (Lookup(settings, "speedTestInterval").Num? && Lookup(settings, "speedTestInterval").n != 0 ==>
                  r.speedTimer == Some(Lookup(settings, "speedTestInterval").n * 60 * 1000))
  {
    var written := UpdateConfig(w.disk, settings).value;
    UpdateThenGet(w.disk, settings);
  }

  /** `updateConfig` from inside the scheduler's world: a rejection leaves the world as it was. */
  function Persist(w: World, partial: Record): (r: Settled)
    ensures r.rejected.Some? <==> w.disk.writeFault.Some?
    ensures r.rejected.Some? ==> r.world == w
    ensures r.world == w.(disk := r.world.disk)
    ensures r.rejected.None? ==> r.world.disk == UpdateConfig(w.disk, partial).value.disk
  {
    match UpdateConfig(w.disk, partial)
    case Failure(e) => Settled(w, Some(e.message))
    case Success(written) => Settled(w.(disk := written.disk), None)
  }

  /** `getLatestResults`: the cache, untouched. */
  function GetLatestResults(w: World): seq<Device>
  {
    w.latestResults
  }
}

=== FILE: system.dfy ===
/**
 * The whole backend as a transition system over interleaved triggers, and
 * the properties that hold across interleavings: single-flight scans, and a
 * web page that follows the server's cache through the event stream.
 *
 * A scan run is three steps (its synchronous start, the resumption after the
 * configuration read, and the resumption after the scanner), so a request
 * can land between them. A `POST /config` handler is a series of
 * `HandlerAction` steps: any interleaving of handlers with each other and
 * with scans is a sequence of such steps, so what holds for every sequence
 * holds for every interleaving.
 */
module System {
  import opened Wrappers
  import opened Values
  import opened Events
  import opened ConfigManager
  import opened WebSocket
  import opened Scheduler
  import opened ScanRoutes
  import opened ScanPage
  import NetworkDetect

  /**
   * Anything that can happen next: a timer firing, a suspended run resuming,
   * or a request. The `detected` of `ScanResolves` is what `getDefaultSubnet`
   * returns at that moment, `NetworkDetect.Detected` of the interfaces.
   * `DiskFault` is the disk starting or stopping to refuse writes (a full
   * disk, a permission change), between any two steps.
   */
  datatype Step =
    | ScanTick
    | ScanResolves(detected: Option<string>)
    | ScanSettles(outcome: ScanOutcome, now: Value)
    | SpeedTick
    | SpeedSettles(measurement: SpeedOutcome)
    | Restart
    | HandlerAction(action: Action)
    | ScanTriggerRequest
    | SpeedTestRequest(measurement: SpeedOutcome)
    | ResultsRequest
    | DiskFault(fault: Option<string>)

  /**
   * One step. A timer that is not armed does not fire; only a run waiting
   * on its configuration read can resolve, only a run waiting on the
   * scanner can settle, and a speed test settles only while one is pending.
   * Only `DiskFault` changes whether the disk accepts writes, and it changes
   * nothing else.
   */
  function Apply(w: World, s: Step): (r: World)
    ensures s.ResultsRequest? ==> r == w
    ensures s.ScanTick? && w.scanTimer.None? ==> r == w
    ensures s.ScanResolves? && w.reading == 0 ==> r == w
    ensures s.ScanSettles? && |w.scanning| == 0 ==> r == w
    ensures s.SpeedTick? && w.speedTimer.None? ==> r == w
    ensures s.SpeedSettles? && w.pendingSpeedTests == 0 ==> r == w
    ensures !s.DiskFault? ==> r.disk.writeFault == w.disk.writeFault
    ensures s.DiskFault? ==> r == w.(disk := w.disk.(writeFault := s.fault))
  {
    match s
    case ScanTick => if w.scanTimer.Some? then BeginScan(w) else w
    case ScanResolves(detected) => if w.reading > 0 then ResolveScan(w, detected) else w
    case ScanSettles(outcome, now) => if |w.scanning| > 0 then SettleScan(w, outcome, now) else w
    case SpeedTick => if w.speedTimer.Some? then LaunchSpeedTest(w) else w
    case SpeedSettles(outcome) => if w.pendingSpeedTests > 0 then SettleSpeedTest(w, outcome) else w
    case Restart => Start(w).world
    case HandlerAction(a) => Perform(w, a).world
    case ScanTriggerRequest => TriggerScan(w).world
    case SpeedTestRequest(outcome) => SpeedTestRoute(w, outcome).0
    case ResultsRequest => w
    case DiskFault(f) => w.(disk := w.disk.(writeFault := f))
  }

  function Run(w: World, steps: seq<Step>): World
    decreases |steps|
  {
    if |steps| == 0 then w else Run(Apply(w, steps[0]), steps[1..])
  }

  lemma {:induction false} RunAppend(w: World, a: seq<Step>, b: seq<Step>)
    ensures Run(w, a + b) == Run(Run(w, a), b)
    decreases |a|
  {
    if |a| > 0 {
      assert (a + b)[0] == a[0] && (a + b)[1..] == a[1..] + b;
      RunAppend(Apply(w, a[0]), a[1..], b);
    } else {
      assert a + b == b;
    }
  }

  lemma RunOne(w: World, s: Step)
    ensures Run(w, [s]) == Apply(w, s)
  {
    assert [s][1..] == [];
  }

  /** The steps of one handler performing `actions` without interruption. */
  function HandlerSteps(actions: seq<Action>): (r: seq<Step>)
    ensures |r| == |actions|
    ensures forall i :: 0 <= i < |r| ==> r[i] == HandlerAction(actions[i])
  {
    if |actions| == 0 then [] else [HandlerAction(actions[0])] + HandlerSteps(actions[1..])
  }

  /**
   * On a writable disk, a handler that runs uninterrupted reaches exactly the
   * world of the atomic `PerformAll`.
   */
  lemma {:induction false} HandlerStepsPerformAll(w: World, actions: seq<Action>)
    requires w.disk.writeFault.None?
    ensures Run(w, HandlerSteps(actions)) == PerformAll(w, actions).world
    decreases |actions|
  {
    if |actions| > 0 {
      var first := Perform(w, actions[0]);
      var steps := HandlerSteps(actions);
      assert steps[0] == HandlerAction(actions[0]) && steps[1..] == HandlerSteps(actions[1..]);
      assert Run(w, steps) == Run(first.world, steps[1..]);
      HandlerStepsPerformAll(first.world, actions[1..]);
    }
  }

  /**
   * A `POST /config` that no other step interrupts is its handler's steps
   * (none when its first write is refused, which changes nothing).
   */
  lemma ConfigRequestIsHandlerSteps(w: World, scanInterval: Option<int>, speedTestInterval: Option<int>,
                                    manualSubnet: Option<Value>)
    ensures var actions := ConfigActions(scanInterval, speedTestInterval, manualSubnet);
            PostConfig(w, scanInterval, speedTestInterval, manualSubnet).world ==
            Run(w, HandlerSteps(if w.disk.writeFault.Some? then [] else actions))
  {
    if w.disk.writeFault.None? {
      HandlerStepsPerformAll(w, ConfigActions(scanInterval, speedTestInterval, manualSubnet));
    }
  }

  // ---------------------------------------------------------------------------
  // Single flight
  // ---------------------------------------------------------------------------

  /** The `scan:started` / `scan:complete` events of a trace, in order. */
  function Phases(t: seq<Emission>): seq<string>
  {
    if |t| == 0 then []
    else Phases(t[..|t| - 1]) + (if IsPhase(t[|t| - 1]) then [t[|t| - 1].event] else [])
  }

  /** Starts and completions alternate, beginning with a start. */
  ghost predicate Alternating(p: seq<string>)
  {
    forall i :: 0 <= i < |p| ==> p[i] == (if i % 2 == 0 then ScanStarted else ScanComplete)
  }

  /**
   * At most one run is in progress, exactly when the flag is set; every
   * `scan:started` is followed by its `scan:complete` before the next one;
   * and the scanner was called at most once per run, finished or not.
   */
  ghost predicate SingleFlight(w: World)
  {
    && Runs(w) <= 1
    && (w.isScanning <==> Runs(w) == 1)
    && Alternating(Phases(w.trace))
    && (w.isScanning <==> |Phases(w.trace)| % 2 == 1)
    && |w.scannerCalls| <= |Phases(w.trace)| / 2 + |w.scanning|
  }

  lemma PhasesAppend(t: seq<Emission>, e: Emission)
    ensures Phases(t + [e]) == Phases(t) + (if IsPhase(e) then [e.event] else [])
  {
    assert (t + [e])[..|t|] == t;
  }

  lemma InitialSingleFlight(d: Disk)
    ensures SingleFlight(Boot(d))
  {
  }

  lemma EmitKeeps(w: World, e: Emission)
    requires SingleFlight(w) && !IsPhase(e)
    ensures SingleFlight(Emit(w, e))
  {
    PhasesAppend(w.trace, e);
  }

  lemma BeginKeeps(w: World)
    requires SingleFlight(w)
    ensures SingleFlight(BeginScan(w))
  {
    if !w.isScanning {
      PhasesAppend(w.trace, Emission(ScanStarted, NoFields));
    }
  }

  /** A run that ends at its configuration read adds one completion; one that goes on adds nothing. */
  lemma ResolveKeeps(w: World, detected: Option<string>)
    requires SingleFlight(w) && w.reading > 0
    ensures SingleFlight(ResolveScan(w, detected))
  {
    var r := ResolveScan(w, detected);
    if !Proceeds(w.disk, detected) {
      var c := r.trace[|w.trace|];
      PhasesAppend(w.trace, c);
      assert r.trace == w.trace + [c];
      CompleteKeeps(w, r);
    }
  }

  /** A run that settles adds one completion, and perhaps a `devices:updated` after it. */
  lemma SettleKeeps(w: World, outcome: ScanOutcome, now: Value)
    requires SingleFlight(w) && |w.scanning| > 0
    ensures SingleFlight(SettleScan(w, outcome, now))
  {
    var r := SettleScan(w, outcome, now);
    var n := |w.trace|;
    var c := r.trace[n];
    PhasesAppend(w.trace, c);
    assert w.trace + [c] == r.trace[..n + 1];
    if |r.trace| == n + 2 {
      PhasesAppend(r.trace[..n + 1], r.trace[n + 1]);
      assert r.trace[..n + 1] + [r.trace[n + 1]] == r.trace;
    } else {
      assert r.trace == r.trace[..n + 1];
    }
    CompleteKeeps(w, r);
  }

  /**
   * A world that adds one completion to a running scan, ends the run and
   * calls the scanner no more keeps single flight.
   */
  lemma CompleteKeeps(w: World, r: World)
    requires SingleFlight(w) && w.isScanning
    requires Phases(r.trace) == Phases(w.trace) + [ScanComplete]
    requires !r.isScanning && Runs(r) == 0 && r.scannerCalls == w.scannerCalls
    ensures SingleFlight(r)
  {
    var p := Phases(w.trace);
    assert |p| % 2 == 1;
    forall i | 0 <= i < |p| + 1
      ensures Phases(r.trace)[i] == (if i % 2 == 0 then ScanStarted else ScanComplete)
    {
      if i < |p| {
        assert Phases(r.trace)[i] == p[i];
      }
    }
  }

  lemma StartKeeps(w: World)
    requires SingleFlight(w)
    ensures SingleFlight(Start(w).world)
  {
    if Start(w).rejected.None? {
      var read := GetConfig(w.disk).value;
      BeginKeeps(w.(disk := read.disk));
    }
  }

  lemma UpdateIntervalsKeeps(w: World, settings: Record)
    requires SingleFlight(w)
    ensures SingleFlight(UpdateIntervals(w, settings).world)
  {
    if w.disk.writeFault.None? {
      var written := UpdateConfig(w.disk, settings).value;
      var restarted := Start(w.(disk := written.disk));
      StartKeeps(w.(disk := written.disk));
      if restarted.rejected.None? {
        EmitKeeps(restarted.world, Emission(ConfigUpdated, Settings(settings)));
      }
    }
  }

  lemma PerformKeeps(w: World, a: Action)
    requires SingleFlight(w)
    ensures SingleFlight(Perform(w, a).world)
  {
    match a
    case RestartWith(settings) => UpdateIntervalsKeeps(w, settings);
    case PersistFields(partial) =>
    case Announce(data) => EmitKeeps(w, Emission(ConfigUpdated, data));
    case Rescan => BeginKeeps(w);
  }

  lemma ApplyKeeps(w: World, s: Step)
    requires SingleFlight(w)
    ensures SingleFlight(Apply(w, s))
  {
    match s
    case ScanTick => BeginKeeps(w);
    case ScanResolves(detected) =>
      if w.reading > 0 {
        ResolveKeeps(w, detected);
      }
    case ScanSettles(outcome, now) =>
      if |w.scanning| > 0 {
        SettleKeeps(w, outcome, now);
      }
    case SpeedTick =>
    case SpeedSettles(outcome) =>
    case Restart => StartKeeps(w);
    case HandlerAction(a) => PerformKeeps(w, a);
    case ScanTriggerRequest => BeginKeeps(w);
    case SpeedTestRequest(outcome) =>
    case ResultsRequest =>
    case DiskFault(f) =>
  }

  /** Single flight holds after every interleaving of timers, resumptions and requests. */
  lemma {:induction false} SingleFlightAlways(w: World, steps: seq<Step>)
    requires SingleFlight(w)
    ensures SingleFlight(Run(w, steps))
    decreases |steps|
  {
    if |steps| > 0 {
      ApplyKeeps(w, steps[0]);
      SingleFlightAlways(Apply(w, steps[0]), steps[1..]);
    }
  }

  /** From process start, whatever happens, scans never overlap. */
  lemma NoOverlappingScans(d: Disk, steps: seq<Step>)
    ensures var w := Run(Boot(d), steps);
            && Runs(w) <= 1
            && (w.isScanning <==> Runs(w) == 1)
            && Alternating(Phases(w.trace))
            && |w.scannerCalls| <= |Phases(w.trace)| / 2 + |w.scanning|
  {
    InitialSingleFlight(d);
    SingleFlightAlways(Boot(d), steps);
  }

  /** Two triggers in a row while idle: one `scan:started`, one run in flight. */
  lemma TwoTriggersOneScan(w: World)
    requires SingleFlight(w) && !w.isScanning
    ensures var r := Run(w, [ScanTriggerRequest, ScanTriggerRequest]);
            r.trace == w.trace + [Emission(ScanStarted, NoFields)] && Runs(r) == 1
  {
    var w1 := Apply(w, ScanTriggerRequest);
    assert [ScanTriggerRequest, ScanTriggerRequest][1..] == [ScanTriggerRequest];
    assert Run(w1, [ScanTriggerRequest]) == Run(Apply(w1, ScanTriggerRequest), []);
  }

  /** Speed tests have no guard: two ticks in a row leave two measurements in flight. */
  lemma SpeedTestsOverlap(w: World)
    requires w.speedTimer.Some?
    ensures var r := Run(w, [SpeedTick, SpeedTick]);
            r.pendingSpeedTests == w.pendingSpeedTests + 2 && r.trace == w.trace && r.disk == w.disk
  {
    var w1 := Apply(w, SpeedTick);
    assert [SpeedTick, SpeedTick][1..] == [SpeedTick];
    assert Run(w1, [SpeedTick]) == Run(Apply(w1, SpeedTick), []);
  }

  /** `GET /results` changes nothing and answers with the cache. */
  lemma ResultsRequestReadsCache(w: World)
    ensures Apply(w, ResultsRequest) == w && GetResults(w) == w.latestResults
  {
  }

  // ---------------------------------------------------------------------------
  // A subnet change races the run in flight
  // ---------------------------------------------------------------------------

  /** The steps of a handler that sets only `manualSubnet`. */
  function SubnetSteps(subnet: Value): seq<Step>
  {
    var field := map["manualSubnet" := subnet];
    HandlerSteps([PersistFields(field), Announce(Settings(field)), Rescan])
  }

  /** With a run in flight, the subnet handler's steps add only `config:updated` and start nothing. */
  lemma SubnetStepsWhileScanning(w: World, subnet: Value)
    requires SingleFlight(w) && w.isScanning && w.disk.writeFault.None?
    ensures var h := Run(w, SubnetSteps(subnet));
            && SingleFlight(h) && h.isScanning
            && h.trace == w.trace + [Emission(ConfigUpdated, Settings(map["manualSubnet" := subnet]))]
            && h.scanning == w.scanning && h.scannerCalls == w.scannerCalls && h.reading == w.reading
            && GetConfig(h.disk).Success? && Lookup(GetConfig(h.disk).value.config, "manualSubnet") == subnet
  {
    var field := map["manualSubnet" := subnet];
    var actions := [PersistFields(field), Announce(Settings(field)), Rescan];
    assert ConfigActions(None, None, Some(subnet)) == actions;
    HandlerStepsPerformAll(w, actions);
    RescanDroppedWhileScanning(w, subnet);
    SingleFlightAlways(w, SubnetSteps(subnet));
  }

  /**
   * A handler that sets `manualSubnet` while a run is in flight persists and
   * announces the subnet, but its rescan meets the guard: the run keeps
   * whatever it resolved, no new run starts, and once the run settles
   * nothing is left to scan the new subnet until the next trigger.
   */
  lemma SubnetChangeWaitsForNextTrigger(w: World, subnet: Value, outcome: ScanOutcome, now: Value)
    requires SingleFlight(w) && w.isScanning && |w.scanning| == 1 && w.disk.writeFault.None?
    ensures var h := Run(w, SubnetSteps(subnet));
            var settled := Apply(h, ScanSettles(outcome, now));
            && h.trace == w.trace + [Emission(ConfigUpdated, Settings(map["manualSubnet" := subnet]))]
            && h.scanning == w.scanning && h.scannerCalls == w.scannerCalls
            && GetConfig(h.disk).Success? && Lookup(GetConfig(h.disk).value.config, "manualSubnet") == subnet
            && Runs(settled) == 0 && !settled.isScanning && settled.scannerCalls == w.scannerCalls
  {
    SubnetStepsWhileScanning(w, subnet);
  }

  /**
   * The write behind `updateSchedulerInterval` succeeds and then the disk
   * starts refusing writes: the handler's `updateConfig({manualSubnet})`
   * rejects, so the request answers 500, yet the scheduler has already
   * restarted, a run has started and `config:updated` has gone out.
   */
  lemma FailureAfterRestart(w: World, settings: Record, subnet: Value, e: string)
    requires !w.isScanning && w.disk.writeFault.None?
    ensures var field := map["manualSubnet" := subnet];
            var restarted := Apply(w, HandlerAction(RestartWith(settings)));
            var failing := Apply(restarted, DiskFault(Some(e)));
            && restarted.isScanning && Runs(restarted) == Runs(w) + 1
            && restarted.trace == w.trace + [Emission(ScanStarted, NoFields), Emission(ConfigUpdated, Settings(settings))]
            && failing.trace == restarted.trace
            && PerformAll(failing, [PersistFields(field), Announce(Settings(field)), Rescan]).rejected.Some?
            && PerformAll(failing, [PersistFields(field), Announce(Settings(field)), Rescan]).world == failing
  {
    UpdateThenGet(w.disk, settings);
    var written := UpdateConfig(w.disk, settings).value.disk;
    assert GetConfig(written).Success?;
  }

  // ---------------------------------------------------------------------------
  // Cold start and re-arming
  // ---------------------------------------------------------------------------

  /**
   * Starting with no configuration file runs one scan and one speed test at
   * once and arms 60 s and 60 min timers; changing the scan interval to 10
   * re-arms the scan timer at 10 s immediately.
   */
  lemma ColdStartThenRearm()
    ensures var w := Start(Boot(Disk(Missing, None))).world;
            && w.trace == [Emission(ScanStarted, NoFields)]
            && w.reading == 1 && w.pendingSpeedTests == 1
            && w.scanTimer == Some(60000) && w.speedTimer == Some(3600000)
            && UpdateIntervals(w, map["scanInterval" := Num(10)]).world.scanTimer == Some(10000)
            && UpdateIntervals(w, map["scanInterval" := Num(10)]).world.speedTimer == Some(3600000)
  {
    var w := Start(Boot(Disk(Missing, None))).world;
    UpdateIntervalsRearms(w, map["scanInterval" := Num(10)]);
    UpdateThenGet(w.disk, map["scanInterval" := Num(10)]);
  }

  // ---------------------------------------------------------------------------
  // The page follows the cache
  // ---------------------------------------------------------------------------

  lemma {:induction false} ReplayKeepsDevices(v: View, ms: seq<Message>)
    requires forall i :: 0 <= i < |ms| ==> ms[i].event != DevicesUpdated
    ensures Replay(v, ms).devices == v.devices
    decreases |ms|
  {
    if |ms| > 0 {
      ReplayKeepsDevices(HandleMessage(v, ms[0]).view, ms[1..]);
    }
  }

  /** Replaying two messages is handling one after the other. */
  lemma ReplayTwo(v: View, ms: seq<Message>)
    requires |ms| == 2
    ensures Replay(v, ms) == HandleMessage(HandleMessage(v, ms[0]).view, ms[1]).view
  {
    var v1 := HandleMessage(v, ms[0]).view;
    assert ms[1..][0] == ms[1] && ms[1..][1..] == [];
    assert Replay(v1, ms[1..]) == Replay(HandleMessage(v1, ms[1]).view, []);
  }

  /** The step settles a scan that found devices and whose `lastScanTime` write will fail. */
  ghost predicate WriteFailsAfterScan(w: World, s: Step)
  {
    s.ScanSettles? && |w.scanning| > 0 && s.outcome.Found? && w.disk.writeFault.Some?
  }

  /** What a step adds to the trace contains no `devices:updated`, and the cache stays. */
  ghost predicate QuietExtension(w: World, w': World)
  {
    && |w.trace| <= |w'.trace| && w'.trace[..|w.trace|] == w.trace
    && w'.latestResults == w.latestResults
    && forall i :: |w.trace| <= i < |w'.trace| ==> w'.trace[i].event != DevicesUpdated
  }

  /** A restart adds at most `scan:started` and `config:updated`, and keeps the cache. */
  lemma UpdateIntervalsQuiet(w: World, settings: Record)
    ensures QuietExtension(w, UpdateIntervals(w, settings).world)
  {
    if w.disk.writeFault.None? {
      var written := UpdateConfig(w.disk, settings).value;
      var restarted := Start(w.(disk := written.disk));
      assert QuietExtension(w, restarted.world);
      if restarted.rejected.None? {
        var e := Emission(ConfigUpdated, Settings(settings));
        assert (restarted.world.trace + [e])[..|restarted.world.trace|] == restarted.world.trace;
      }
    }
  }

  lemma PerformQuiet(w: World, a: Action)
    ensures QuietExtension(w, Perform(w, a).world)
  {
    match a
    case RestartWith(settings) => UpdateIntervalsQuiet(w, settings);
    case PersistFields(partial) =>
    case Announce(data) =>
    case Rescan =>
  }

  /** Every step other than a settling scan keeps the cache and broadcasts no `devices:updated`. */
  lemma QuietStep(w: World, s: Step)
    requires !s.ScanSettles?
    ensures QuietExtension(w, Apply(w, s))
  {
    match s
    case HandlerAction(a) => PerformQuiet(w, a);
    case ScanResolves(detected) =>
      if w.reading > 0 {
        assert ResolveScan(w, detected).trace[..|w.trace|] == w.trace;
      }
    case _ =>
  }

  /** The broadcasts of a step extend the trace. */
  lemma ApplyExtendsTrace(w: World, s: Step)
    ensures |w.trace| <= |Apply(w, s).trace| && Apply(w, s).trace[..|w.trace|] == w.trace
  {
    if !s.ScanSettles? {
      QuietStep(w, s);
    }
  }

  /** A quiet extension leaves a page that showed the cache showing it, whenever each message arrives. */
  lemma QuietPage(w: World, w': World, v: View, stamps: seq<Value>)
    requires QuietExtension(w, w') && v.devices == w.latestResults
    requires |stamps| == |w'.trace| - |w.trace|
    ensures Replay(v, Stamped(w'.trace[|w.trace|..], stamps)).devices == w'.latestResults
  {
    var ms := Stamped(w'.trace[|w.trace|..], stamps);
    forall i | 0 <= i < |ms|
      ensures ms[i].event != DevicesUpdated
    {
      assert ms[i].event == w'.trace[|w.trace| + i].event;
    }
    ReplayKeepsDevices(v, ms);
  }

  /** A settling scan keeps the page on the cache unless its `lastScanTime` write fails after devices were found. */
  lemma SettleFollowsCache(w: World, outcome: ScanOutcome, at: Value, v: View, stamps: seq<Value>)
    requires |w.scanning| > 0 && v.devices == w.latestResults
    requires !WriteFailsAfterScan(w, ScanSettles(outcome, at))
    requires |stamps| == |SettleScan(w, outcome, at).trace| - |w.trace|
    ensures var w' := SettleScan(w, outcome, at);
            Replay(v, Stamped(w'.trace[|w.trace|..], stamps)).devices == w'.latestResults
  {
    var w' := SettleScan(w, outcome, at);
    var ms := Stamped(w'.trace[|w.trace|..], stamps);
    match outcome
    case Found(devices) =>
      SettleWithDevices(w, devices, at);
      ReplayTwo(v, ms);
    case ScanError(message) =>
      SettleWithScanError(w, message, at);
      assert ms[0].event == ScanComplete;
      ReplayKeepsDevices(v, ms);
  }

  /**
   * A page connected to the server, whose socket stays open, that showed the
   * cache still shows it after any step and whenever each message is
   * stamped, except after a scan whose `lastScanTime` write failed: that
   * path replaces the cache but broadcasts no `devices:updated`.
   */
  lemma PageFollowsCache(w: World, s: Step, v: View, clients: seq<Client>, i: nat)
    requires i < |clients| && clients[i].readyState == Open
    requires v.devices == w.latestResults && !WriteFailsAfterScan(w, s)
    ensures var w' := Apply(w, s);
            && |w.trace| <= |w'.trace|
            && forall stamps :: |stamps| == |w'.trace| - |w.trace| ==>
                 Replay(v, Inbox(clients, i, w'.trace[|w.trace|..], stamps)).devices == w'.latestResults
  {
    // An outline of the argument: the solver also finds it unaided.
    var w' := Apply(w, s);
    ApplyExtendsTrace(w, s);
    forall stamps | |stamps| == |w'.trace| - |w.trace|
      ensures Replay(v, Inbox(clients, i, w'.trace[|w.trace|..], stamps)).devices == w'.latestResults
    {
      InboxIsStamped(clients, i, w'.trace[|w.trace|..], stamps);
      if s.ScanSettles? && |w.scanning| > 0 {
        SettleFollowsCache(w, s.outcome, s.now, v, stamps);
      } else if s.ScanSettles? {
        QuietPage(w, w, v, stamps);
      } else {
        QuietStep(w, s);
        QuietPage(w, w', v, stamps);
      }
    }
  }

  /**
   * After a successful scan the page that saw its events shows exactly the
   * cached devices, is no longer scanning or loading and shows no error; and
   * `GET /results` returns the list `devices:updated` carried.
   */
  lemma SuccessfulScanReachesPage(w: World, devices: seq<Device>, at: Value, v: View, stamps: seq<Value>)
    requires |w.scanning| > 0 && w.disk.writeFault.None? && |stamps| == 2
    ensures var w' := SettleScan(w, Found(devices), at);
            var page := Replay(v, Stamped(w'.trace[|w.trace|..], stamps));
            && page.devices == GetResults(w') == devices
            && !page.scanning && !page.loading && page.error.None?
            && w'.trace[|w'.trace| - 1] == Emission(DevicesUpdated, DeviceList(Some(GetResults(w'))))
  {
    SettleWithDevices(w, devices, at);
    var w' := SettleScan(w, Found(devices), at);
    ReplayTwo(v, Stamped(w'.trace[|w.trace|..], stamps));
  }

  /** The configuration `{manualSubnet: "10.0.0.0/24"}` on a disk that refuses writes. */
  function ReadOnlyDisk(): Disk
  {
    Disk(Stored(map["manualSubnet" := Str("10.0.0.0/24")]), Some("EACCES"))
  }

  /** A scan on the read-only disk that finds one device caches it and reports the write failure. */
  lemma WriteFailureRun(dev: Device)
    ensures var w := Run(Boot(ReadOnlyDisk()), [ScanTriggerRequest, ScanResolves(None), ScanSettles(Found([dev]), Str("t"))]);
            && w.latestResults == [dev]
            && w.trace == [Emission(ScanStarted, NoFields), Failed("EACCES")]
  {
    var w0 := BeginScan(Boot(ReadOnlyDisk()));
    var w1 := ResolveScan(w0, None);
    assert w1.scanning == [Str("10.0.0.0/24")] && w1.latestResults == [] && w1.disk == ReadOnlyDisk() &&
           w1.trace == [Emission(ScanStarted, NoFields)] by {
      assert ResolveSubnet(GetConfig(ReadOnlyDisk()).value.config, None) == Some(Str("10.0.0.0/24"));
    }
    SettleWithWriteError(w1, [dev], Str("t"));
    RunAppend(Boot(ReadOnlyDisk()), [ScanTriggerRequest], [ScanResolves(None), ScanSettles(Found([dev]), Str("t"))]);
    RunOne(Boot(ReadOnlyDisk()), ScanTriggerRequest);
    RunAppend(w0, [ScanResolves(None)], [ScanSettles(Found([dev]), Str("t"))]);
    RunOne(w0, ScanResolves(None));
    RunOne(w1, ScanSettles(Found([dev]), Str("t")));
  }

  /**
   * The failed `lastScanTime` write made concrete: a scan finds a device,
   * the write fails, and the page reports a failure and keeps its empty list
   * while `GET /results` already returns the new device.
   */
  lemma WriteFailureDiverges(dev: Device)
    ensures var w := Run(Boot(ReadOnlyDisk()), [ScanTriggerRequest, ScanResolves(None), ScanSettles(Found([dev]), Str("t"))]);
            && GetResults(w) == [dev]
            && |w.trace| == 2
            && Replay(Mounted, Stamped(w.trace, [Str("t"), Str("t")])).devices == []
            && Replay(Mounted, Stamped(w.trace, [Str("t"), Str("t")])).error == Some(ScanFailedText("EACCES"))
  {
    WriteFailureRun(dev);
    var w := Run(Boot(ReadOnlyDisk()), [ScanTriggerRequest, ScanResolves(None), ScanSettles(Found([dev]), Str("t"))]);
    ReplayTwo(Mounted, Stamped(w.trace, [Str("t"), Str("t")]));
  }

  /** The configuration `{manualSubnet: "A"}`, writable. */
  function StoredA(): Disk
  {
    Disk(Stored(map["manualSubnet" := Str("A")]), None)
  }

  /** Restarting with a new scan interval starts a run whose configuration read still names `"A"`. */
  lemma RestartKeepsSubnet()
    ensures var w := Apply(Boot(StoredA()), HandlerAction(RestartWith(map["scanInterval" := Num(30)])));
            && SingleFlight(w) && w.isScanning && w.reading == 1 && w.scanning == [] && w.scannerCalls == []
            && w.disk.writeFault.None?
            && GetConfig(w.disk).Success? && Lookup(GetConfig(w.disk).value.config, "manualSubnet") == Str("A")
  {
    var settings := map["scanInterval" := Num(30)];
    var w0 := Boot(StoredA());
    InitialSingleFlight(StoredA());
    ApplyKeeps(w0, HandlerAction(RestartWith(settings)));
    UpdateThenGet(StoredA(), settings);
    var written := UpdateConfig(StoredA(), settings).value.disk;
    var read := GetConfig(written).value;
    assert read.disk == written;
  }

  /** The restart's run then reads its configuration, and hands `"A"` to the scanner. */
  lemma RestartThenResolve()
    ensures var w := Run(Boot(StoredA()), [HandlerAction(RestartWith(map["scanInterval" := Num(30)])), ScanResolves(None)]);
            && SingleFlight(w) && w.isScanning && w.disk.writeFault.None?
            && w.scannerCalls == [Str("A")] && w.scanning == [Str("A")] && w.reading == 0
  {
    var restart := HandlerAction(RestartWith(map["scanInterval" := Num(30)]));
    var w0 := Boot(StoredA());
    var w1 := Apply(w0, restart);
    RestartKeepsSubnet();
    assert Proceeds(w1.disk, None);
    ResolveKeeps(w1, None);
    RunAppend(w0, [restart], [ScanResolves(None)]);
    RunOne(w0, restart);
    RunOne(w1, ScanResolves(None));
  }

  /**
   * One `POST /config` with a scan interval and a manual subnet, from idle:
   * the restart's run reads the configuration before the handler writes the
   * subnet, so it scans the old one, and the handler's own rescan is dropped
   * by the guard. The new subnet waits for the next tick.
   */
  lemma RestartScansOldSubnet()
    ensures var w := Run(Boot(StoredA()), [HandlerAction(RestartWith(map["scanInterval" := Num(30)])), ScanResolves(None)] +
                                          SubnetSteps(Str("B")));
            && w.scannerCalls == [Str("A")] && w.scanning == [Str("A")] && w.reading == 0
            && GetConfig(w.disk).Success? && Lookup(GetConfig(w.disk).value.config, "manualSubnet") == Str("B")
  {
    var prefix := [HandlerAction(RestartWith(map["scanInterval" := Num(30)])), ScanResolves(None)];
    RestartThenResolve();
    RunAppend(Boot(StoredA()), prefix, SubnetSteps(Str("B")));
    SubnetStepsWhileScanning(Run(Boot(StoredA()), prefix), Str("B"));
  }

  /**
   * Without a manual subnet a run scans what `getDefaultSubnet` detects: it
   * resolves a subnet exactly when some interface is usable, and then the
   * rendering of the first usable interface's subnet.
   */
  lemma DetectedSubnetIsScanned(config: Record, groups: seq<NetworkDetect.Group>)
    requires !Truthy(Lookup(config, "manualSubnet"))
    ensures var first := NetworkDetect.FirstUsable(NetworkDetect.Flatten(groups));
            && (ResolveSubnet(config, NetworkDetect.Detected(groups)).Some? <==> first.Some?)
            && (first.Some? ==> ResolveSubnet(config, NetworkDetect.Detected(groups)) ==
                                Some(Str(NetworkDetect.Render(first.value))))
  {
  }

  /** The page's subnet is truthy exactly when the scheduler resolves one, and then it is the same subnet. */
  lemma DisplayAgreesWithScan(config: Record, detected: Option<string>)
    ensures var shown := DisplaySubnet(Lookup(config, "manualSubnet"), detected);
            && (Truthy(shown) <==> ResolveSubnet(config, detected).Some?)
            && (Truthy(shown) ==> ResolveSubnet(config, detected) == Some(shown))
  {
  }
}

=== FILE: values.dfy ===
/**
 * The JSON-like values held in the configuration record and carried in
 * event payloads, with JavaScript's notion of truthiness.
 */
module Values {

  /** A JSON scalar. Measurements and ISO timestamps are opaque `Str` tokens. */
  datatype Value = Null | Bool(b: bool) | Num(n: int) | Str(s: string)

  /** A configuration record: the fields of one JSON object. */
  type Record = map<string, Value>

  /** JavaScript truthiness: `null`, `false`, `0` and `""` are falsy, everything else is truthy. */
  predicate Truthy(v: Value)
  {
    match v
    case Null => false
    case Bool(b) => b
    case Num(n) => n != 0
    case Str(s) => s != ""
  }

  /** A field read that yields `Null` for a missing key (JavaScript's falsy `undefined`). */
  function Lookup(r: Record, key: string): Value
  {
    if key in r then r[key] else Null
  }
}

=== FILE: websocket.dfy ===
/**
 * The broadcast fan-out: one serialised message, sent once to every client
 * whose socket is open, in the server's client iteration order.
 */
module WebSocket {
  import opened Wrappers
  import opened Values
  import opened Events

  /** `WebSocket.OPEN`. */
  const Open: int := 1

  /** A connected client as the server sees it: only its ready state matters here. */
  datatype Client = Client(readyState: int)

  /** One `client.send(message)`, naming the client by its position in the client list. */
  datatype Send = Send(to: nat, message: Message)

  /** Client `i` is sent something. */
  ghost predicate Receives(sends: seq<Send>, i: nat)
  {
    exists j :: 0 <= j < |sends| && sends[j].to == i
  }

  /** The sends of the `forEach` over `clients[from..]`. */
  function SendFrom(clients: seq<Client>, from: nat, m: Message): (r: seq<Send>)
    requires from <= |clients|
    decreases |clients| - from
    ensures forall j :: 0 <= j < |r| ==> r[j].message == m
    ensures forall j :: 0 <= j < |r| ==> from <= r[j].to < |clients| && clients[r[j].to].readyState == Open
    ensures forall j, k :: 0 <= j < k < |r| ==> r[j].to < r[k].to
    ensures forall i :: from <= i < |clients| && clients[i].readyState == Open ==> Receives(r, i)
  {
    if from == |clients| then []
    else
      var rest := SendFrom(clients, from + 1, m);
      if clients[from].readyState == Open then
        PrependReceives(Send(from, m), rest);
        [Send(from, m)] + rest
      else rest
  }

  /** Putting a send in front keeps every earlier recipient and adds the new one. */
  lemma PrependReceives(s: Send, rest: seq<Send>)
    ensures forall i :: Receives(rest, i) ==> Receives([s] + rest, i)
    ensures Receives([s] + rest, s.to)
  {
    var r := [s] + rest;
    forall i | Receives(rest, i)
      ensures Receives(r, i)
    {
      var j :| 0 <= j < |rest| && rest[j].to == i;
      assert r[j + 1].to == i;
    }
    assert r[0].to == s.to;
  }

  /**
   * `broadcast(event, data)`: nothing when the server is not initialised;
   * otherwise the same `{event, data, timestamp}` message to each open client
   * exactly once, and to no other client.
   */
  function Broadcast(server: Option<seq<Client>>, e: Emission, now: Value): (r: seq<Send>)
    ensures server.None? ==> r == []
    ensures forall j :: 0 <= j < |r| ==> r[j].message == Message(e.event, e.data, now)
    ensures forall j :: 0 <= j < |r| ==>
              server.Some? && r[j].to < |server.value| && server.value[r[j].to].readyState == Open
    ensures forall j, k :: 0 <= j < k < |r| ==> r[j].to < r[k].to
    ensures server.Some? ==>
              forall i :: 0 <= i < |server.value| && server.value[i].readyState == Open ==> Receives(r, i)
  {
    match server
    case None => []
    case Some(clients) => SendFrom(clients, 0, Message(e.event, e.data, now))
  }

  /** Each open client receives exactly one message; a client in any other state receives none. */
  lemma ExactlyOnce(clients: seq<Client>, e: Emission, now: Value, i: nat)
    requires i < |clients|
    ensures clients[i].readyState == Open ==>
              exists j :: 0 <= j < |Broadcast(Some(clients), e, now)| && Broadcast(Some(clients), e, now)[j].to == i &&
                forall k :: 0 <= k < |Broadcast(Some(clients), e, now)| && k != j ==> Broadcast(Some(clients), e, now)[k].to != i
    ensures clients[i].readyState != Open ==>
              forall j :: 0 <= j < |Broadcast(Some(clients), e, now)| ==> Broadcast(Some(clients), e, now)[j].to != i
  {
    var r := Broadcast(Some(clients), e, now);
    if clients[i].readyState == Open {
      assert Receives(r, i);
      var j :| 0 <= j < |r| && r[j].to == i;
      assert forall k :: 0 <= k < |r| && k != j ==> r[k].to != i;
    }
  }

  // ---------------------------------------------------------------------------
  // What one client receives over a run of broadcasts
  // ---------------------------------------------------------------------------

  /** The messages among `sends` addressed to client `i`, in send order. */
  function MessagesTo(sends: seq<Send>, i: nat): seq<Message>
  {
    if |sends| == 0 then []
    else (if sends[0].to == i then [sends[0].message] else []) + MessagesTo(sends[1..], i)
  }

  /** Each broadcast's message, stamped with the clock reading of its own `broadcast` call. */
  function Stamped(es: seq<Emission>, stamps: seq<Value>): (ms: seq<Message>)
    requires |stamps| == |es|
    ensures |ms| == |es|
    ensures forall k :: 0 <= k < |es| ==> ms[k] == Message(es[k].event, es[k].data, stamps[k])
  {
    if |es| == 0 then [] else [Message(es[0].event, es[0].data, stamps[0])] + Stamped(es[1..], stamps[1..])
  }

  /** Everything client `i` is sent while the server broadcasts `es`, the k-th at time `stamps[k]`. */
  function Inbox(clients: seq<Client>, i: nat, es: seq<Emission>, stamps: seq<Value>): seq<Message>
    requires |stamps| == |es|
  {
    if |es| == 0 then []
    else MessagesTo(Broadcast(Some(clients), es[0], stamps[0]), i) + Inbox(clients, i, es[1..], stamps[1..])
  }

  /** In a send list with strictly increasing recipients that all carry `m`, client `i` finds `m` once or not at all. */
  lemma {:induction false} MessagesToUnique(sends: seq<Send>, i: nat, m: Message)
    requires forall j :: 0 <= j < |sends| ==> sends[j].message == m
    requires forall j, k :: 0 <= j < k < |sends| ==> sends[j].to < sends[k].to
    ensures MessagesTo(sends, i) == if Receives(sends, i) then [m] else []
  {
    if |sends| > 0 {
      var rest := sends[1..];
      MessagesToUnique(rest, i, m);
      if sends[0].to == i {
        assert !Receives(rest, i) by {
          forall j | 0 <= j < |rest|
            ensures rest[j].to != i
          {
            assert rest[j] == sends[j + 1];
          }
        }
        assert Receives(sends, i) by { assert sends[0].to == i; }
      } else {
        assert Receives(sends, i) <==> Receives(rest, i) by {
          if Receives(sends, i) {
            var j :| 0 <= j < |sends| && sends[j].to == i;
            assert j > 0 && rest[j - 1].to == i;
          }
          if Receives(rest, i) {
            var j :| 0 <= j < |rest| && rest[j].to == i;
            assert sends[j + 1].to == i;
          }
        }
      }
    }
  }

  /** One broadcast delivers exactly its message to an open client and nothing to any other client. */
  lemma BroadcastTo(clients: seq<Client>, i: nat, e: Emission, now: Value)
    requires i < |clients|
    ensures MessagesTo(Broadcast(Some(clients), e, now), i) ==
            if clients[i].readyState == Open then [Message(e.event, e.data, now)] else []
  {
    var r := Broadcast(Some(clients), e, now);
    MessagesToUnique(r, i, Message(e.event, e.data, now));
    assert Receives(r, i) ==> clients[i].readyState == Open;
  }

  /**
   * A client that stays open receives every broadcast once, in order, each
   * with its own timestamp; a client in any other state receives nothing.
   */
  lemma {:induction false} InboxIsStamped(clients: seq<Client>, i: nat, es: seq<Emission>, stamps: seq<Value>)
    requires i < |clients| && |stamps| == |es|
    ensures clients[i].readyState == Open ==> Inbox(clients, i, es, stamps) == Stamped(es, stamps)
    ensures clients[i].readyState != Open ==> Inbox(clients, i, es, stamps) == []
  {
    if |es| > 0 {
      BroadcastTo(clients, i, es[0], stamps[0]);
      InboxIsStamped(clients, i, es[1..], stamps[1..]);
    }
  }
}

=== FILE: wrappers.dfy ===
/** Failure-compatible wrappers shared by every module of the model. */
module Wrappers {

  /** A value that may be absent: JavaScript's `null`/`undefined` for a field or a return. */
  datatype Option<+T> = None | Some(value: T)

  /** The outcome of an operation that may reject (a rejected promise or a thrown error). */
  datatype Result<+T, +E> = Success(value: T) | Failure(error: E)
}
